=== FILE: README.md ===
# Power-meter processing pipeline, modelled in Dafny

This project models the processing core of an energy-meter firmware: the
task in `power.c` that turns a stream of scaled voltage/current samples into
one-second measurements and power-quality events, and the buffers and flash
fallback behind it. Everything is written as immutable data and pure step
functions over it:

- `common.dfy` (`Common`): optional values, per-channel pairs, and the
  `uint32_t` wrap-around of the firmware's clocks (`Sub32`, `Add32`).
- `ring.dfy` (`RingBuffer`): the head/tail/count ring buffer behind the
  measurement, event and internal-event stores. It is abstracted to the
  logical sequence `Contents()`, oldest first. The measurement buffer uses
  overwrite-on-full pushes and the event buffer uses reject-on-full pushes.
- `types.dfy` (`PowerTypes`): measurements, events, event types with their
  minimum counts, flash records and the fixed sizes.
- `waveform.dfy` (`Waveform`): the four-trace rolling waveform snapshot and
  `get_waveform`.
- `classifier.dfy` (`Classifier`): the per-channel, per-type event tallies
  and the reporting at window close.
- `cycle.dfy` (`Cycle`): per-channel zero-crossing cycle detection and the
  checks run on each measured cycle.
- `aggregation.dfy` (`MinuteAggregation`): `convert_power_data_flash`. A
  description of its result by runs of same-minute entries (`Pick`) is
  proved to match the loop.
- `fallback.dfy` (`Fallback`): the flash-fallback trigger, the three drain
  stages, `flash_error` and the resume decision.
- `processing.dfy` (`Processing`): one turn of the power task's loop. It covers
  the stall detector, the per-sample updates, the window close and the
  fallback.

Floating-point values are modelled as reals. The square root and the cycle
formulas (frequency, RMS) are function parameters. Clock readings, the
server-connection status and flash-driver outcomes are inputs of a step.

## Model

| member | source | states |
|---|---|---|
| RingBuffer.Empty | power.c:86-88 | a buffer with head, tail and count at 0 is valid and holds nothing |
| RingBuffer.PushOverwrite | power.c:342-357 | the entry is written at `head` and `head` advances; with room, `count` grows by one, `tail` stays and the entry is appended; when full, `tail` advances, `count` stays at capacity and the oldest entry is evicted |
| RingBuffer.PushAllKeepsNewest | power.c:342-357 | after any run of `add_power_data` calls the buffer holds the newest `capacity` entries ever added, in order |
| RingBuffer.Read | power.c:359-372 | an index below `count` yields the index-th oldest element, which is slot `(tail + index) % C`; any other index fails and nothing changes; `get_power_event` (power.c:461-474) is the same operation |
| RingBuffer.Delete | power.c:374-389 | `qty > count` gives -1 and changes nothing; otherwise it gives 0, `tail` advances by `qty` modulo the capacity, `count` drops by `qty`, `head` stays, and the contents lose exactly their first `qty` elements; `delete_power_events` (power.c:476-491) is the same |
| RingBuffer.PushReject | power.c:439-459 | on a full buffer it gives -1 and changes nothing; otherwise the event is appended at `head`; the "full" signal is raised iff this push made the buffer full |
| RingBuffer.PushAllRejectSignalsOnce | power.c:439-459 | over a run of pushes with no deletions the buffer keeps its old contents plus as many new events as fit, and the "full" signal fires exactly once if the run reaches capacity, never otherwise |
| Waveform.Write | power.c:256-263 | each of the four traces' windows of the last 50 values drops its oldest value and gains the new one |
| Waveform.WriteAllSlides | power.c:256-263 | after any run of samples each trace holds the last 50 values of the old window followed by the samples |
| Waveform.GetWaveform | power.c:493-500 | returns `qty` values; value `k` is window position `k mod 50`, counted from the write position (the oldest value); for `qty <= 50` they are the oldest `qty` values of the window; the snapshot is not changed |
| Classifier.Occur | power.c:162-172 | one occurrence adds exactly 1 to the count; the first occurrence of a window initialises the accumulator and the worst value, later ones add to the accumulator; the worst value is replaced only by a value that strictly supersedes it, so on a tie (a spike of equal magnitude and opposite sign) the earlier value stays; spikes are compared and averaged by magnitude but stored signed |
| Classifier.Bump | power.c:162-172 | only the tally of the given channel and type changes |
| Classifier.OccurAllSummarises | power.c:180-236 | from a cleared count, a window's occurrences leave count = their number, accumulator = their sum, and a worst value that is one of them and that no occurrence supersedes |
| Classifier.EventFor | power.c:291-297 | a report carries the window's timestamp, the type, channel `ch + 1`, the count, an average that multiplied by the count gives the accumulator, and the stored worst value |
| Classifier.EmitExactly | power.c:289-303 | a (channel, type) pair is reported iff its count reached the type's minimum from the table at power.c:37; every report is that pair's `EventFor`; reports come in strict table order, so no pair is reported twice |
| Classifier.ClearCounts | power.c:302 | every count becomes 0, reported or not; accumulators and worst values are left as they were |
| Cycle.Summary | power.c:175-177 | a measured cycle's elapsed time is the time since its start crossing on the `uint32_t` clock (the plain difference, or wrapped by 2^32); its sums of squares and sample count are the cycle's own; once the detector is armed the cycle has at least one sample, so the RMS divisions are defined |
| Cycle.ClassifyCycle | power.c:180-236 | each of the five cycle types the metrics fall into gets exactly one occurrence, with the value it is checked on; spike tallies and the other channel are untouched |
| Cycle.ChannelStep | power.c:161-254 | a spike occurrence for each sample whose magnitude exceeds the ceiling; cycle events only on a strict rising crossing with the detector armed; the detector moves to `NextCycle`; the other channel's tallies are untouched |
| Cycle.NextCycle | power.c:174-253 | every strict rising crossing arms the detector and restarts the cycle at this sample with this sample alone in it; otherwise the sample is added to the cycle and the armed state is kept; the previous voltage becomes this sample's |
| MinuteAggregation.MinuteStart | power.c:407 | the record timestamp is a multiple of 60 within the entry's minute |
| MinuteAggregation.Run | power.c:400-429 | the loop stops only at the end of the buffer or at the first entry of a new minute once 15 entries are accumulated |
| MinuteAggregation.Convert | power.c:391-437 | consumes exactly the entries up to the end of the group `Pick` chooses, only from the tail; the buffer keeps the rest; `seconds` is the group's size; the timestamp is the group's minute start, a multiple of 60; the energies integrate `p * (second - last_second) / 3600` over the group with `last_second = -1` at its start; the status is 0 iff `seconds >= 15`; an empty buffer leaves the record's other fields as they were |
| MinuteAggregation.ConvertPowerDataFlash | power.c:391-437 | the entry-by-entry loop leaves the buffer, record and status that `Convert` describes |
| MinuteAggregation.PickFacts | power.c:400-414 | the chosen group is one whole run of a single minute; every run before it has fewer than 15 entries; a group with fewer than 15 entries is only ever the last run, so a failed conversion consumes the whole buffer |
| MinuteAggregation.RunPicks | power.c:400-429 | from a pending restart, the loop stops at the end of the group `PickFrom` chooses and holds exactly that group's summary |
| MinuteAggregation.RunGroup | power.c:400-429 | inside a group the loop consumes the rest of its run, then stops (15 entries or the end) or restarts at the next minute |
| MinuteAggregation.ConsumeRestarts | power.c:401-413 | the first entry of a new minute restarts the record from that entry alone |
| MinuteAggregation.EnergyBetweenSlice | power.c:421-422 | the energy integrated by positions equals the energy of the group as a sequence |
| Fallback.DrainFrom | power.c:315-323 | the firmware's loop: write `j` is the element `2 * j` places from the start, each success deletes the oldest element, the loop stops at the first failed write or once its index passes the shrinking count |
| Fallback.DrainOldest | power.c:315-323 | the corrected loop: the written elements followed by the remaining ones are exactly the old contents; it stops iff a write fails, at that write |
| Fallback.Drain | power.c:315-333 | under either policy, each success deletes exactly one oldest element and the first failed write ends the stage; with the firmware's policy the written elements are those at even positions |
| Fallback.AsWrittenStopsHalfway | power.c:315-323 | with no failing write the firmware's loop writes only half of the buffer's positions, rounded up, and leaves the rest in the buffer |
| Fallback.AsWrittenLosesSecond | power.c:315-323 | with three buffered events and no failing write, the first and third are written, the first two deleted, and the third is left to be written again |
| Fallback.OldestFirstWritesAll | power.c:315-323 | with the corrected loop and no failing write, the whole buffer is written in order and ends empty |
| Fallback.RunFallback | power.c:305-337 | `flash_error <= 3`; sampling resumes iff `flash_error < 3`; it stays paused iff all three stages failed; a failed conversion is never counted; the measurement buffer is converted only with 60 or more entries; each drain removes as many of the oldest elements as it wrote; with the corrected loop nothing is lost |
| Fallback.AllWritesSucceed | power.c:306-336 | with the corrected loops and every flash write succeeding, every buffered event is written in order, both event buffers end empty, `flash_error` is 0 and sampling resumes |
| Processing.Init | power.c:50-95 | the task starts with no empty receive counted, sampling started and not paused, an empty window, both detectors waiting for a first crossing with empty cycles, every count 0, an empty measurement buffer and nothing raised; that state is well formed |
| Processing.OnEmpty | power.c:98-106 | an empty receive changes nothing unless sampling runs, and never touches the window, the buffers, the tables, the waveform, the cycle detectors, the previous readings or the pause state; it counts, and the third in a row clears the running status, resets the count and raises one "sampling stopped" event with value 0 |
| Processing.StallAfterThree | power.c:98-108 | from a running state, one or two empty receives in a row raise nothing and keep sampling running; the third stops it with exactly one "sampling stopped" event |
| Processing.StoppedStaysQuiet | power.c:98-106 | once sampling is not running, empty receives change nothing |
| Processing.BeginSample | power.c:115-134 | a sample from a new RTC second zeroes the sums and restarts the window from itself; the first sample of a window sets its start; otherwise the counter grows by one and the sums and start are kept |
| Processing.RtcChangeRestarts | power.c:115-134 | after an RTC change the counter is 1, the sums hold only this sample, the window cannot close on it, no cycle is measured, and the event counts carry on; both detectors wait for a first crossing again, and one that sees no crossing on this sample keeps accumulating its cycle (start, sums of squares and sample count carry on) |
| Processing.RtcChangeRearms | power.c:120-132 | after an RTC change both detectors wait for a first crossing again (`first_rise`), and a detector that sees no crossing on this sample keeps its cycle's start and adds the sample to its sums and count |
| Processing.RearmWithoutCrossing | power.c:130-131 | a re-armed detector that sees no crossing keeps accumulating its cycle and keeps waiting for a first crossing |
| Processing.OnePhaseRepeatsSecondChannel | power.c:136-263 | with one phase, the second channel's sums are left alone, but its cycle detector and waveform traces are fed its previous values again |
| Processing.Channels | power.c:161-254 | both channels are processed whatever the number of phases, each detector moving to its `NextCycle`; each channel's table is what that channel's own `ChannelStep` makes of it (its spike and cycle occurrences are recorded), although the second channel's step runs after the first; no count decreases |
| Processing.StepOwnTable | power.c:161-254 | a channel's step reads and writes only that channel's tallies, so its result does not depend on the other channel's table |
| Processing.StepCountsGrow | power.c:161-254 | one channel's step never lowers a count |
| Processing.Rearm | power.c:130-131 | an RTC change sets `first_rise` on a detector and changes nothing else about it; without a change the detector is left as it was |
| Processing.RearmedMeasureNothing | power.c:174-176 | with both detectors waiting for a first crossing, a sample measures no cycle, so only spike counts can change |
| Processing.MeasurementOf | power.c:268-279 | the measurement counts the window's samples; its timestamp is the RTC second of the first sample plus the whole seconds of the first sample's clock, wrapped by 2^32 on overflow; its duration is the `uint32_t` clock difference from the first sample: the plain difference, or wrapped by 2^32 when the clock has wrapped; mean power times the sample count is the power sum; the RMS values are square roots of the mean squares |
| Processing.Report | power.c:289-303 | the reports are appended to the event buffer as far as they fit; exactly one "events buffer full" event, carrying the buffer's capacity, is raised iff the reports fill a buffer that was not already full; nothing else is raised |
| Processing.CloseWindow | power.c:267-337 | after a window close the sums are zero, the counter is 0 and every event count is 0; the running status, the stall counter, the waveform, the cycle detectors and the previous readings are untouched |
| Processing.CloseWindowFallback | power.c:281-337 | the fallback runs iff its trigger (not connected, flash enabled, 60 or more measurements or an event buffer full) holds on the buffers as they are once the measurement and the reports are stored; then the buffers are what it leaves and sampling stays paused iff it did not resume; otherwise the stored buffers and the pause state are kept; the raised events are those of the reports |
| Processing.ClosedWindowReports | power.c:267-303 | while the server is connected (or flash is off), a closing window appends its measurement to the measurement buffer, which keeps its newest entries; it appends the qualifying events to the event buffer, as many as fit; every qualifying pair is reported, and only those |
| Processing.ClosingSampleReports | power.c:161-303 | a sample that closes the window reports from the tables its own channel steps leave: a pair is reported iff its count there reaches the type's minimum; the raised events are those of that report; while no fallback can run, the reports are appended to the event buffer as far as they fit |
| Processing.ClosingSampleCloses | power.c:267-287 | a sample that closes the window restarts the counter and the sums at zero, clears every event count, and (while no fallback can run) its window's measurement, counting this sample, is appended to the measurement buffer, which keeps its newest entries |
| Processing.OpenWindowKeepsBuffers | power.c:161-267 | a sample that does not close the window leaves the buffers, the raised events and the pause state alone, and no count decreases; each channel's table is what its channel step, with the detector re-armed on an RTC change, makes of it; a reading whose magnitude exceeds the ceiling adds exactly one spike occurrence to its channel, and no other reading adds one |
| Processing.OpenSampleAccumulates | power.c:115-158 | a sample that neither restarts nor closes the window adds one to the counter; the first channel's sums grow by v², i² and v·i; with two phases the second channel's sums grow the same way, otherwise they are left alone |
| Processing.SampleAdds | power.c:115-158 | on the window alone: a sample that does not restart it adds one to the counter and its readings' squares and products to the sums of the channels read |
| Processing.OpenWindowSums | power.c:136-158 | inside the window, the window after a sample is the started window with this sample's readings added |
| Processing.SampleWritesWaveform | power.c:256-263 | every sample is written to the waveform: each trace's window drops its oldest value and gains this sample's reading; with one phase the second channel's values are the previous ones |
| Processing.OnSample | power.c:108-337 | processing a sample resets the empty-receive count, leaves the running status alone and keeps the state well formed; the previous readings become this sample's (the second channel's kept with one phase) and the waveform gets them; each channel's detector is re-armed on an RTC change and then takes this sample's readings, whether or not the window closes |
| Processing.Step | power.c:97-339 | a turn of the loop keeps the state well formed; a received sample resets the empty-receive count |
| Common.Sub32 | power.c:267 | a `uint32_t` subtraction: the plain difference when it is non-negative, otherwise wrapped by 2^32 |
| Common.Add32 | power.c:268 | a `uint32_t` addition, wrapped by 2^32 on overflow |

## Findings

| source | as written | input that shows it | evidently intended | confidence | as-written member | corrected member |
|---|---|---|---|---|---|---|
| power.c:315-323 | each pass writes the event at loop index `i` but deletes the oldest event, while `i` grows and the count shrinks | three buffered events e0, e1, e2 and every flash write succeeding: e0 and e2 are written, e0 and e1 are deleted, e2 stays buffered; e1 never reaches flash and e2 will be written twice | each pass writes the oldest event and deletes it, so every buffered event reaches flash once, in order | high; not executed | Fallback.AsWrittenLosesSecond | Fallback.DrainOldest |

The internal-event loop (power.c:325-333) has the same shape and is modelled
by the same drain functions. The fallback takes the drain policy as a
parameter: `AsWritten` reproduces the firmware, and `OldestFirst` is the
corrected loop. `Fallback.OldestFirstWritesAll` and `Fallback.AllWritesSucceed`
prove the intended property for the corrected loop.

A conversion that finds fewer than 15 entries adds nothing to
`flash_error`: the record write is skipped, and only a failed record write
counts (power.c:310-313, `Fallback.RunFallback`).

## Left out

- Floating point: reals replace `float`. `sqrtf` is the parameter `sqrt`,
  and the frequency and RMS formulas of a cycle (power.c:176-178) are the
  parameter `metricsOf`. The ADC scaling (power.c:136-154) is not modelled:
  samples arrive already scaled.
- FreeRTOS: the mutexes, message buffer and task creation are not modelled.
  Each buffer operation is one atomic step, as the firmware ignores the
  result of every mutex take. The receive timeout becomes the `Empty` input.
- `raw_adc_data_count`, its decrement and the "ADC buffer full" event
  (power.c:110-113) belong to the sampling side, which is not part of this
  model.
- `add_internal_event` and the internal-event buffer live in `ievents.c`,
  which is not part of this model.
  - Raised internal events are recorded in an append-only log (`raised`)
    instead of being pushed into that buffer.
  - The buffer is assumed to have the same get/delete semantics as the
    power-event buffer, with a capacity given by the buffer itself.
- `power.h` is not part of this model. Event types are assumed to be
  ordered as the minimum-count table at power.c:37 is (spike, frequency
  high, frequency low, overcurrent, voltage high, voltage low).
- `POWER_DATA_BUFFER_SIZE` and `IEVENT_BUFFER_SIZE` are free capacities: any
  positive size that fits the 16-bit indices.
- `pause_sampling` and `start_sampling` live in the sampling module, which
  is not part of this model. They are recorded as the `paused` flag. How they
  affect the running status that the stall detector reads is not modelled,
  except that `Processing.Init` takes the `start_sampling` call at power.c:95
  to leave sampling running.
- Processing.Init: the values the firmware leaves uninitialised (the
  previous readings, the detectors' previous voltages, the tallies'
  accumulators and worst values) are parameters, and so are the waveform,
  the two event buffers and the flash record, which are set up outside the
  task. The mutex creation at power.c:82-84 is not modelled.
- `flash_add_power_data`, `flash_add_power_event` and
  `flash_add_internal_event` are outcomes given as inputs. A drain is given
  the number of its first failing write attempt, since the loop stops there.
  `get_internal_event` is assumed to fail only past the count, like
  `get_power_event`, so the drain loops never skip an index.
- `get_time()` is the input `now`, one reading per turn of the loop.
- Waveform.GetWaveform: trace numbers are restricted to 0-3. The firmware
  does not check its `channel` argument.
- RingBuffer.Read: the two firmware readers differ only in their failure
  code (1 for measurements, -1 for events). The model returns `None` for
  both.

=== FILE: aggregation.dfy ===
/** Minute aggregation for the flash fallback (`convert_power_data_flash`):
    one-second entries are consumed oldest first and grouped by minute-of-hour;
    a minute with fewer than 15 entries is dropped when the next minute
    begins, and the first minute that reaches 15 entries becomes the flash
    record, its active energy integrated as `p * (second - last_second) / 3600`
    with `last_second = -1` at the start of the minute. */
module MinuteAggregation {
  import opened Common
  import opened PowerTypes
  import opened RingBuffer

  /** Minute within the hour, the key entries are grouped by. */
  function MinuteOf(d: PowerData): (m: nat)
    ensures m < 60
  {
    (d.timestamp % 3600) / 60
  }

  function SecondOf(d: PowerData): (s: nat)
    ensures s < 60
  {
    d.timestamp % 60
  }

  /** The entry's timestamp rounded down to a whole minute. */
  function MinuteStart(d: PowerData): (t: nat)
    ensures t % 60 == 0 && t <= d.timestamp < t + 60
  {
    d.timestamp - d.timestamp % 60
  }

  /** Energy, in watt-hours, of power `p` held from `lastSecond` to `second`. */
  function Gain(p: real, second: int, lastSecond: int): real {
    p * (second - lastSecond) as real / 3600.0
  }

  /** Adds one entry's gain to the channels that are enabled (`ch < phases`). */
  function AddGains(active: Pair, p: Pair, second: int, lastSecond: int, phases: nat): Pair {
    Pair(if phases >= 1 then active.a + Gain(p.a, second, lastSecond) else active.a,
         if phases >= 2 then active.b + Gain(p.b, second, lastSecond) else active.b)
  }

  /** The conversion loop's variables: entries in the current minute, current
      minute and second, and the record being built. */
  datatype Acc = Acc(counter: nat, minute: int, second: int, timestamp: nat, active: Pair)

  /** Before the first entry: minute 60 matches no entry, so the first entry
      always starts a minute. */
  function Start(init: FlashRecord): Acc {
    Acc(0, 60, -1, init.timestamp, init.active)
  }

  /** The loop stops, without consuming `d`, at the first entry of a new
      minute once the current minute has 15 entries. */
  predicate StopsAt(a: Acc, d: PowerData) {
    MinuteOf(d) != a.minute && a.counter >= MinMinuteSeconds
  }

  /** Consuming one entry: a new minute restarts the record (dropping the
      short one), then the entry's gain is integrated. */
  function Consume(a: Acc, d: PowerData, phases: nat): Acc {
    var a1 := if MinuteOf(d) != a.minute then Acc(0, a.minute, -1, MinuteStart(d), Zero) else a;
    Acc(a1.counter + 1, MinuteOf(d), SecondOf(d), a1.timestamp,
        AddGains(a1.active, d.p, SecondOf(d), a1.second, phases))
  }

  /** The loop over the entries `s[i..]` with variables `a`: where it stops
      (the index of the first entry it does not consume) and the final
      variables. */
  function Run(s: seq<PowerData>, i: nat, a: Acc, phases: nat): (r: (nat, Acc))
    requires i <= |s|
    ensures i <= r.0 <= |s|
    ensures r.0 == |s| || StopsAt(r.1, s[r.0])
    decreases |s| - i
  {
    if i == |s| || StopsAt(a, s[i]) then (i, a)
    else Run(s, i + 1, Consume(a, s[i], phases), phases)
  }

  /** `convert_power_data_flash`: consumes entries from the tail of the buffer
      and fills the flash record; 0 when the record holds at least 15 entries,
      -1 otherwise. `init` is the record's previous contents, left in place
      when the buffer is empty. What is consumed and what the record holds is
      stated against `Pick`, an independent description by runs of entries. */
  function Convert(buf: Ring<PowerData>, init: FlashRecord, phases: nat): (res: (Ring<PowerData>, FlashRecord, int))
    requires buf.Valid() && phases <= 2
    ensures res.0.Valid() && SameShape(buf, res.0)
    ensures var s := buf.Contents(); var (skip, stop) := Pick(s);
      && res.0.Contents() == s[stop..]
      && res.0.tail == (buf.tail + stop) % buf.Capacity()
      && res.1.seconds == stop - skip
      && (skip < stop ==> res.1.timestamp == MinuteStart(s[skip]) && res.1.active == Energies(s[skip..stop], phases))
    ensures buf.count > 0 ==> res.1.timestamp % 60 == 0
    ensures buf.count == 0 ==> res.1 == init.(seconds := 0)
    ensures res.2 == (if res.1.seconds >= MinMinuteSeconds then 0 else -1)
  {
    var s := buf.Contents();
    var r := Run(s, 0, Start(init), phases);
    var stop := r.0;
    var a := r.1;
    assert Run(s, stop, a, phases) == (stop, a);
    ConvertResult(s, init, phases, stop, a);
    (Delete(buf, stop).0, FlashRecord(a.timestamp, a.active, a.counter), if a.counter < MinMinuteSeconds then -1 else 0)
  }

  /** The loop of `convert_power_data_flash`, one entry at a time from the
      tail, computes `Convert`. */
  method ConvertPowerDataFlash(buf: Ring<PowerData>, init: FlashRecord, phases: nat)
    returns (buf': Ring<PowerData>, rec: FlashRecord, status: int)
    requires buf.Valid() && phases <= 2
    ensures var res := Convert(buf, init, phases);
      buf'.Valid() && SameShape(buf', res.0) && buf'.Contents() == res.0.Contents() && rec == res.1 && status == res.2
  {
    ghost var s := buf.Contents();
    var counter: nat := 0;
    var minute: int := 60;
    var second: int := -1;
    var timestamp := init.timestamp;
    var active := init.active;
    var cur := buf;
    ghost var consumed: nat := 0;
    while cur.count > 0
      invariant consumed <= |s|
      invariant cur.Valid() && SameShape(buf, cur) && cur.Contents() == s[consumed..]
      invariant Run(s, 0, Start(init), phases) == Run(s, consumed, Acc(counter, minute, second, timestamp, active), phases)
      decreases cur.count
    {
      ghost var before := Acc(counter, minute, second, timestamp, active);
      var d := Oldest(cur);
      AdvanceOne(s, cur, consumed);
      if MinuteOf(d) != minute {
        if counter >= MinMinuteSeconds {
          break;
        }
        timestamp := MinuteStart(d);
        counter := 0;
        second := -1;
        active := Zero;
      }
      var lastSecond := second;
      second := SecondOf(d);
      minute := MinuteOf(d);
      active := AddGains(active, d.p, second, lastSecond, phases);
      cur := Delete(cur, 1).0;
      counter := counter + 1;
      assert Acc(counter, minute, second, timestamp, active) == Consume(before, d, phases);
      RunStep(s, consumed, before, phases);
      consumed := consumed + 1;
    }
    buf' := cur;
    rec := FlashRecord(timestamp, active, counter);
    status := if counter < MinMinuteSeconds then -1 else 0;
    LoopComputesConvert(buf, init, phases, consumed, Acc(counter, minute, second, timestamp, active));
  }

  /** Taking the oldest entry of the buffer that holds `s[consumed..]`. */
  lemma AdvanceOne(s: seq<PowerData>, cur: Ring<PowerData>, consumed: nat)
    requires cur.Valid() && cur.count > 0 && consumed <= |s| && cur.Contents() == s[consumed..]
    ensures consumed < |s| && Oldest(cur) == s[consumed]
    ensures Delete(cur, 1).0.Contents() == s[consumed + 1..]
  {
    DropDrop(s, consumed, 1);
  }

  /** Where the loop stops, the buffer holds what `Convert` leaves and the
      variables hold its record. */
  lemma LoopComputesConvert(buf: Ring<PowerData>, init: FlashRecord, phases: nat, consumed: nat, a: Acc)
    requires buf.Valid() && phases <= 2
    requires consumed <= buf.count && (consumed == buf.count || StopsAt(a, buf.Contents()[consumed]))
    requires Run(buf.Contents(), 0, Start(init), phases) == Run(buf.Contents(), consumed, a, phases)
    ensures var res := Convert(buf, init, phases);
      && res.0.Contents() == buf.Contents()[consumed..]
      && res.1 == FlashRecord(a.timestamp, a.active, a.counter)
      && res.2 == (if a.counter < MinMinuteSeconds then -1 else 0)
  {
    assert Run(buf.Contents(), consumed, a, phases) == (consumed, a);
  }

  /** One step of the loop: an entry that does not stop it is consumed. */
  lemma RunStep(s: seq<PowerData>, i: nat, a: Acc, phases: nat)
    requires i < |s| && !StopsAt(a, s[i])
    ensures Run(s, i, a, phases) == Run(s, i + 1, Consume(a, s[i], phases), phases)
  {
  }

  /** Where the loop ends, read against `Pick`. */
  lemma ConvertResult(s: seq<PowerData>, init: FlashRecord, phases: nat, consumed: nat, a: Acc)
    requires consumed <= |s|
    requires consumed == |s| || StopsAt(a, s[consumed])
    requires Run(s, 0, Start(init), phases) == Run(s, consumed, a, phases)
    ensures var (skip, stop) := Pick(s);
      && consumed == stop
      && a.counter == stop - skip
      && (skip < stop ==> a.timestamp == MinuteStart(s[skip]) && a.active == Energies(s[skip..stop], phases))
      && (|s| == 0 ==> a == Start(init))
  {
    assert Run(s, consumed, a, phases) == (consumed, a);
    RunPicks(s, 0, Start(init), phases);
    var (skip, stop) := Pick(s);
    if skip < stop {
      EnergyBetweenSlice(s, skip, stop, 0);
      EnergyBetweenSlice(s, skip, stop, 1);
    }
  }

  // ---------------------------------------------------------------------
  // Reference description by runs of same-minute entries.

  /** The end of the run of minute `m` that continues at index `j`: the first
      index from `j` on that is past the end or holds another minute. */
  function RunEnd(s: seq<PowerData>, j: nat, m: nat): (e: nat)
    requires j <= |s|
    ensures j <= e <= |s|
    ensures e < |s| ==> MinuteOf(s[e]) != m
    decreases |s| - j
  {
    if j == |s| || MinuteOf(s[j]) != m then j else RunEnd(s, j + 1, m)
  }

  /** Every entry from `j` up to the run's end is in minute `m`. */
  lemma {:induction false} RunEndSame(s: seq<PowerData>, j: nat, m: nat)
    requires j <= |s|
    ensures forall k :: j <= k < RunEnd(s, j, m) ==> MinuteOf(s[k]) == m
    decreases |s| - j
  {
    if j < |s| && MinuteOf(s[j]) == m {
      RunEndSame(s, j + 1, m);
    }
  }

  /** The group a record is built from, as the bounds `(skip, stop)` of a run
      of same-minute entries of `s[i..]`: the first run of at least 15
      entries, or the last run when there is none. */
  function PickFrom(s: seq<PowerData>, i: nat): (r: (nat, nat))
    requires i <= |s|
    ensures i <= r.0 <= r.1 <= |s|
    ensures i < |s| ==> r.0 < r.1
    decreases |s| - i
  {
    if i == |s| then (i, i)
    else
      var e := RunEnd(s, i + 1, MinuteOf(s[i]));
      if e - i >= MinMinuteSeconds || e == |s| then (i, e) else PickFrom(s, e)
  }

  function Pick(s: seq<PowerData>): (r: (nat, nat))
    ensures r.0 <= r.1 <= |s|
  {
    PickFrom(s, 0)
  }

  /** The second of the entry before the last one of `g`, -1 if there is none. */
  function PrevSecond(g: seq<PowerData>): int
    requires |g| > 0
  {
    if |g| >= 2 then SecondOf(g[|g| - 2]) else -1
  }

  /** Energy of a minute group on one channel: the sum, in order, of each
      entry's power times the seconds since the previous entry, over 3600. */
  function Energy(g: seq<PowerData>, ch: Channel): real
    decreases |g|
  {
    if |g| == 0 then 0.0
    else Energy(g[..|g| - 1], ch) + Gain(g[|g| - 1].p.At(ch), SecondOf(g[|g| - 1]), PrevSecond(g))
  }

  /** The energies recorded for a group: enabled channels integrate, the
      others stay at zero. */
  function Energies(g: seq<PowerData>, phases: nat): Pair {
    Pair(if phases >= 1 then Energy(g, 0) else 0.0, if phases >= 2 then Energy(g, 1) else 0.0)
  }

  /** `Energy` of the group `s[i..j]`, by positions in `s`. */
  function EnergyBetween(s: seq<PowerData>, i: nat, j: nat, ch: Channel): real
    requires i <= j <= |s|
    decreases j - i
  {
    if j == i then 0.0
    else EnergyBetween(s, i, j - 1, ch) + Gain(s[j - 1].p.At(ch), SecondOf(s[j - 1]), if j - 1 > i then SecondOf(s[j - 2]) else -1)
  }

  lemma {:induction false} EnergyBetweenSlice(s: seq<PowerData>, i: nat, j: nat, ch: Channel)
    requires i <= j <= |s|
    ensures EnergyBetween(s, i, j, ch) == Energy(s[i..j], ch)
    decreases j - i
  {
    if j > i {
      EnergyBetweenSlice(s, i, j - 1, ch);
      assert s[i..j][..j - 1 - i] == s[i..j - 1];
    }
  }

  /** The loop variables after consuming exactly the entries `s[i..j]`, all
      of one minute, from a restart. */
  function Summary(s: seq<PowerData>, i: nat, j: nat, phases: nat): Acc
    requires i < j <= |s|
  {
    Acc(j - i, MinuteOf(s[i]), SecondOf(s[j - 1]), MinuteStart(s[i]),
        Pair(if phases >= 1 then EnergyBetween(s, i, j, 0) else 0.0, if phases >= 2 then EnergyBetween(s, i, j, 1) else 0.0))
  }

  /** Consuming an entry of a new minute restarts from that entry alone. */
  lemma ConsumeRestarts(a: Acc, s: seq<PowerData>, i: nat, phases: nat)
    requires i < |s| && MinuteOf(s[i]) != a.minute
    ensures Consume(a, s[i], phases) == Summary(s, i, i + 1, phases)
  {
    assert EnergyBetween(s, i, i + 1, 0) == Gain(s[i].p.a, SecondOf(s[i]), -1);
    assert EnergyBetween(s, i, i + 1, 1) == Gain(s[i].p.b, SecondOf(s[i]), -1);
  }

  /** Consuming an entry of the group's minute extends the group. */
  lemma ConsumeExtends(s: seq<PowerData>, i: nat, j: nat, phases: nat)
    requires i < j < |s| && MinuteOf(s[j]) == MinuteOf(s[i])
    ensures Consume(Summary(s, i, j, phases), s[j], phases) == Summary(s, i, j + 1, phases)
  {
  }

  /** Where the loop goes once the group `s[i..e]` is complete: it stops
      there if the group has 15 entries or nothing is left, and otherwise it
      carries on from the entry at `e`, about to restart. */
  function AfterGroup(s: seq<PowerData>, i: nat, e: nat, phases: nat): (nat, Acc)
    requires i < e <= |s|
  {
    if e == |s| || e - i >= MinMinuteSeconds then (e, Summary(s, i, e, phases))
    else Run(s, e, Summary(s, i, e, phases), phases)
  }

  /** Inside a group of minute `MinuteOf(s[i])` that has reached `j`, the
      loop consumes the rest of the run and then goes on as `AfterGroup`
      says. */
  lemma {:induction false} RunGroup(s: seq<PowerData>, i: nat, j: nat, phases: nat)
    requires i < j <= |s|
    ensures Run(s, j, Summary(s, i, j, phases), phases) == AfterGroup(s, i, RunEnd(s, j, MinuteOf(s[i])), phases)
    decreases |s| - j
  {
    var m := MinuteOf(s[i]);
    var a := Summary(s, i, j, phases);
    if j < |s| && MinuteOf(s[j]) == m {
      ConsumeExtends(s, i, j, phases);
      assert !StopsAt(a, s[j]);
      RunStep(s, j, a, phases);
      assert Run(s, j, a, phases) == Run(s, j + 1, Summary(s, i, j + 1, phases), phases);
      RunGroup(s, i, j + 1, phases);
      assert RunEnd(s, j, m) == RunEnd(s, j + 1, m);
    } else {
      assert RunEnd(s, j, m) == j;
      if j == |s| || j - i >= MinMinuteSeconds {
        assert j < |s| ==> StopsAt(a, s[j]);
        assert Run(s, j, a, phases) == (j, a);
      }
    }
  }

  /** From a pending restart (or the end), the loop stops at the end of the
      group `PickFrom` chooses and holds exactly that group. */
  lemma {:induction false} RunPicks(s: seq<PowerData>, i: nat, a: Acc, phases: nat)
    requires i <= |s|
    requires i < |s| ==> MinuteOf(s[i]) != a.minute && a.counter < MinMinuteSeconds
    ensures i == |s| ==> Run(s, i, a, phases) == (i, a)
    ensures i < |s| ==> Run(s, i, a, phases) == (PickFrom(s, i).1, Summary(s, PickFrom(s, i).0, PickFrom(s, i).1, phases))
    decreases |s| - i
  {
    if i < |s| {
      ConsumeRestarts(a, s, i, phases);
      assert Run(s, i, a, phases) == Run(s, i + 1, Summary(s, i, i + 1, phases), phases);
      RunGroup(s, i, i + 1, phases);
      var e := RunEnd(s, i + 1, MinuteOf(s[i]));
      if e < |s| && e - i < MinMinuteSeconds {
        RunPicks(s, e, Summary(s, i, e, phases), phases);
      }
    }
  }

  /** `s[skip..stop]` is a whole run of same-minute entries: nonempty, one
      minute throughout, and neither neighbour is in that minute. */
  predicate WholeRun(s: seq<PowerData>, skip: nat, stop: nat) {
    && skip < stop <= |s|
    && (forall k :: skip <= k < stop ==> MinuteOf(s[k]) == MinuteOf(s[skip]))
    && (skip > 0 ==> MinuteOf(s[skip - 1]) != MinuteOf(s[skip]))
    && (stop < |s| ==> MinuteOf(s[stop]) != MinuteOf(s[skip]))
  }

  /** Whether a run of same-minute entries starts at `b`. */
  predicate RunStart(s: seq<PowerData>, b: nat) {
    b < |s| && (b == 0 || MinuteOf(s[b - 1]) != MinuteOf(s[b]))
  }

  /** What `Pick` chooses: a whole run of one minute, the first one with at
      least 15 entries (every run before it is shorter); it is ended by the
      first entry of a new minute only when it has at least 15 entries, so a
      shorter group is only ever the last one and a failed conversion
      consumes everything. */
  lemma PickFacts(s: seq<PowerData>)
    ensures var (skip, stop) := Pick(s);
      && (|s| > 0 ==> WholeRun(s, skip, stop))
      && (forall b :: 0 <= b < skip ==> ShortRunAt(s, b))
      && (stop - skip < MinMinuteSeconds ==> stop == |s|)
  {
    PickFromFacts(s, 0);
    PickFromFirst(s, 0);
  }

  lemma {:induction false} PickFromFacts(s: seq<PowerData>, i: nat)
    requires i <= |s|
    requires 0 < i < |s| ==> MinuteOf(s[i - 1]) != MinuteOf(s[i])
    ensures var (skip, stop) := PickFrom(s, i);
      && (i < |s| ==> WholeRun(s, skip, stop))
      && (stop - skip < MinMinuteSeconds ==> stop == |s|)
    decreases |s| - i
  {
    if i < |s| {
      var m := MinuteOf(s[i]);
      var e := RunEnd(s, i + 1, m);
      RunEndSame(s, i + 1, m);
      if e - i >= MinMinuteSeconds || e == |s| {
        assert PickFrom(s, i) == (i, e);
        assert WholeRun(s, i, e);
      } else {
        assert PickFrom(s, i) == PickFrom(s, e);
        assert MinuteOf(s[e - 1]) == m;
        PickFromFacts(s, e);
      }
    }
  }

  /** A run that starts at `b` has fewer than 15 entries. */
  predicate ShortRunAt(s: seq<PowerData>, b: nat) {
    RunStart(s, b) ==> RunEnd(s, b + 1, MinuteOf(s[b])) - b < MinMinuteSeconds
  }

  /** Every run `PickFrom` passes over is shorter than 15 entries. */
  lemma {:induction false} PickFromFirst(s: seq<PowerData>, i: nat)
    requires i <= |s|
    ensures forall b :: i <= b < PickFrom(s, i).0 ==> ShortRunAt(s, b)
    decreases |s| - i
  {
    if i < |s| {
      var e := RunEnd(s, i + 1, MinuteOf(s[i]));
      if !(e - i >= MinMinuteSeconds || e == |s|) {
        var skip := PickFrom(s, e).0;
        assert PickFrom(s, i).0 == skip;
        PickFromFirst(s, e);
        RunInterior(s, i);
        assert ShortRunAt(s, i);
        assert forall b :: i < b < e ==> ShortRunAt(s, b);
        assert forall b :: e <= b < skip ==> ShortRunAt(s, b);
      }
    }
  }

  /** No run starts strictly inside the run that starts at `i`. */
  lemma RunInterior(s: seq<PowerData>, i: nat)
    requires i < |s|
    ensures forall b :: i < b < RunEnd(s, i + 1, MinuteOf(s[i])) ==> !RunStart(s, b)
  {
    var m := MinuteOf(s[i]);
    RunEndSame(s, i + 1, m);
    forall b | i < b < RunEnd(s, i + 1, m)
      ensures !RunStart(s, b)
    {
      assert MinuteOf(s[b - 1]) == m && MinuteOf(s[b]) == m;
    }
  }
}

=== FILE: classifier.dfy ===
/** The event classifier: per channel and per event type, the number of
    occurrences in the current window, the accumulator for their average and
    the worst value seen; at window close, one event per (channel, type) whose
    count reached the type's minimum, after which every count starts over. */
module Classifier {
  import opened Common
  import opened PowerTypes

  datatype Tally = Tally(count: nat, acc: real, worst: real)

  const Cleared: Tally := Tally(0, 0.0, 0.0)

  /** One tally per event type, at the type's `Index()`. */
  type Table = t: seq<Tally> | |t| == EventTypeQty witness [Cleared, Cleared, Cleared, Cleared, Cleared, Cleared]

  /** One table per channel. */
  type Tables = ts: seq<Table> | |ts| == 2 witness [[Cleared, Cleared, Cleared, Cleared, Cleared, Cleared], [Cleared, Cleared, Cleared, Cleared, Cleared, Cleared]]

  /** The value an occurrence adds to the average accumulator: spikes are
      averaged by magnitude, everything else by signed value. */
  function Magnitude(e: EventType, x: real): real {
    if e == VoltageSpike then Abs(x) else x
  }

  /** Whether `x` replaces `w` as the worst value of type `e`: spikes compare
      magnitudes, highs keep the larger value, lows the smaller. */
  predicate Supersedes(e: EventType, x: real, w: real) {
    if e == VoltageSpike then Abs(x) > Abs(w)
    else if e.LargerIsWorse() then x > w
    else x < w
  }

  /** One qualifying occurrence of value `x`: the first one of the window
      initialises the accumulator and the worst value (the old ones are stale),
      later ones add to the accumulator and replace the worst value only when
      they strictly supersede it, so a tie keeps the earlier value. The signed
      value is stored even where magnitudes are compared. */
  function Occur(t: Tally, e: EventType, x: real): (r: Tally)
    ensures r.count == t.count + 1
    ensures r.acc == (if t.count == 0 then 0.0 else t.acc) + Magnitude(e, x)
    ensures t.count == 0 ==> r.worst == x
    ensures t.count > 0 ==> r.worst == x || r.worst == t.worst
    ensures !Supersedes(e, x, r.worst)
    ensures t.count > 0 ==> !Supersedes(e, t.worst, r.worst)
    ensures t.count > 0 && !Supersedes(e, x, t.worst) ==> r.worst == t.worst
  {
    if t.count == 0 then
      Tally(1, Magnitude(e, x), x)
    else
      Tally(t.count + 1, t.acc + Magnitude(e, x), if Supersedes(e, x, t.worst) then x else t.worst)
  }

  /** Occurrence `x` of type `e` recorded in the table of `ch`; nothing else
      in the tables changes. */
  function Bump(ts: Tables, ch: Channel, e: EventType, x: real): (ts': Tables)
    ensures ts'[ch][e.Index()] == Occur(ts[ch][e.Index()], e, x)
    ensures forall c: Channel, k :: 0 <= k < EventTypeQty && (c != ch || k != e.Index()) ==> ts'[c][k] == ts[c][k]
  {
    ts[ch := ts[ch][e.Index() := Occur(ts[ch][e.Index()], e, x)]]
  }

  /** Records a run of occurrences, oldest first. */
  function OccurAll(t: Tally, e: EventType, xs: seq<real>): Tally
    decreases |xs|
  {
    if |xs| == 0 then t else Occur(OccurAll(t, e, xs[..|xs| - 1]), e, xs[|xs| - 1])
  }

  function SumOf(e: EventType, xs: seq<real>): real
    decreases |xs|
  {
    if |xs| == 0 then 0.0 else SumOf(e, xs[..|xs| - 1]) + Magnitude(e, xs[|xs| - 1])
  }

  /** Over a window, a tally summarises the occurrences since its count was
      cleared: the count is their number, the accumulator the sum of their
      magnitudes, and the worst value is one of them that none of them
      supersedes. */
  lemma {:induction false} OccurAllSummarises(t: Tally, e: EventType, xs: seq<real>)
    requires t.count == 0 && |xs| > 0
    ensures OccurAll(t, e, xs).count == |xs|
    ensures OccurAll(t, e, xs).acc == SumOf(e, xs)
    ensures OccurAll(t, e, xs).worst in xs
    ensures forall k :: 0 <= k < |xs| ==> !Supersedes(e, xs[k], OccurAll(t, e, xs).worst)
    decreases |xs|
  {
    var n := |xs| - 1;
    if n > 0 {
      var init := xs[..n];
      OccurAllSummarises(t, e, init);
      var prev := OccurAll(t, e, init);
      var r := Occur(prev, e, xs[n]);
      forall k | 0 <= k < |xs|
        ensures !Supersedes(e, xs[k], r.worst)
      {
        if k < n {
          assert xs[k] == init[k];
          SupersedesTransitive(e, xs[k], prev.worst, r.worst);
        }
      }
      assert prev.worst in xs;
    }
  }

  /** "Not superseding" chains: a value that does not beat `w`, where `w` does
      not beat `w'`, does not beat `w'` either. */
  lemma SupersedesTransitive(e: EventType, x: real, w: real, w': real)
    requires !Supersedes(e, x, w) && !Supersedes(e, w, w')
    ensures !Supersedes(e, x, w')
  {
  }

  /** Whether a tally of type `e` is reported at window close. */
  predicate Qualifies(t: Tally, e: EventType) {
    t.count >= e.MinCount()
  }

  /** The event reported for `ch` and `e` at window close: channels are
      numbered from 1, the average is the accumulator over the count. */
  function EventFor(ts: Tables, ch: Channel, e: EventType, timestamp: nat): (ev: PowerEvent)
    requires Qualifies(ts[ch][e.Index()], e)
    ensures ev.kind == e && ev.channel == ch + 1 && ev.count == ts[ch][e.Index()].count
    ensures ev.avg * (ev.count as real) == ts[ch][e.Index()].acc
    ensures ev.worst == ts[ch][e.Index()].worst && ev.timestamp == timestamp
  {
    var t := ts[ch][e.Index()];
    PowerEvent(timestamp, e, ch + 1, t.count, t.acc / t.count as real, t.worst)
  }

  /** Table position of the (channel, type) pair: the firmware visits channel
      1 before channel 2 and the types in table order. */
  function KeyOf(ch: Channel, e: EventType): nat {
    ch * EventTypeQty + e.Index()
  }

  /** The channel and the type at table position `k`. */
  function ChannelOfKey(k: nat): (ch: Channel)
    requires k < 2 * EventTypeQty
  {
    if k < EventTypeQty then 0 else 1
  }

  function TypeOfKey(k: nat): (e: EventType)
    requires k < 2 * EventTypeQty
    ensures KeyOf(ChannelOfKey(k), e) == k
  {
    TypeAt(if k < EventTypeQty then k else k - EventTypeQty)
  }

  function EventKey(ev: PowerEvent): int {
    (ev.channel - 1) * EventTypeQty + ev.kind.Index()
  }

  /** Events reported from table position `k` on. */
  function EmitFrom(ts: Tables, timestamp: nat, k: nat): (evs: seq<PowerEvent>)
    requires k <= 2 * EventTypeQty
    ensures forall j :: 0 <= j < |evs| ==> k <= EventKey(evs[j]) < 2 * EventTypeQty
    decreases 2 * EventTypeQty - k
  {
    if k == 2 * EventTypeQty then []
    else
      var ch := ChannelOfKey(k);
      var e := TypeOfKey(k);
      var rest := EmitFrom(ts, timestamp, k + 1);
      if Qualifies(ts[ch][e.Index()], e) then [EventFor(ts, ch, e, timestamp)] + rest else rest
  }

  /** The events reported at window close (power.c, the loop over channels and
      types), all stamped with the window's timestamp. */
  function Emit(ts: Tables, timestamp: nat): (evs: seq<PowerEvent>)
  {
    EmitFrom(ts, timestamp, 0)
  }

  /** Whether `ev` is the event its channel and type are reported with. */
  predicate IsReportFor(ts: Tables, timestamp: nat, ev: PowerEvent) {
    && 1 <= ev.channel <= 2
    && Qualifies(ts[ev.channel - 1][ev.kind.Index()], ev.kind)
    && ev == EventFor(ts, ev.channel - 1, ev.kind, timestamp)
  }

  /** Whether some event in `evs` reports type `e` on channel `ch`. */
  predicate Reported(evs: seq<PowerEvent>, ch: Channel, e: EventType) {
    exists ev :: ev in evs && ev.channel == ch + 1 && ev.kind == e
  }

  /** At window close, the event for a (channel, type) pair is reported if and
      only if its count reached the type's minimum; every report carries that
      count and average; and the reports come in strict table order, so no
      pair is reported twice. */
  lemma EmitExactly(ts: Tables, timestamp: nat)
    ensures forall ch: Channel, e: EventType :: Qualifies(ts[ch][e.Index()], e) <==> Reported(Emit(ts, timestamp), ch, e)
    ensures forall ev :: ev in Emit(ts, timestamp) ==> IsReportFor(ts, timestamp, ev)
    ensures SortedByKey(Emit(ts, timestamp))
  {
    EmitFromSound(ts, timestamp, 0);
    EmitFromSorted(ts, timestamp, 0);
    var evs := Emit(ts, timestamp);
    forall ch: Channel, e: EventType
      ensures Qualifies(ts[ch][e.Index()], e) <==> Reported(evs, ch, e)
    {
      if Qualifies(ts[ch][e.Index()], e) {
        EmitFromComplete(ts, timestamp, 0, ch, e);
      }
    }
  }

  /** Every reported event is the one its (channel, type) pair qualifies for. */
  lemma {:induction false} EmitFromSound(ts: Tables, timestamp: nat, k: nat)
    requires k <= 2 * EventTypeQty
    ensures forall ev :: ev in EmitFrom(ts, timestamp, k) ==> IsReportFor(ts, timestamp, ev)
    decreases 2 * EventTypeQty - k
  {
    if k < 2 * EventTypeQty {
      EmitFromSound(ts, timestamp, k + 1);
      var ch := ChannelOfKey(k);
      var e := TypeOfKey(k);
      var rest := EmitFrom(ts, timestamp, k + 1);
      if Qualifies(ts[ch][e.Index()], e) {
        var ev0 := EventFor(ts, ch, e, timestamp);
        assert EmitFrom(ts, timestamp, k) == [ev0] + rest;
        assert IsReportFor(ts, timestamp, ev0);
      } else {
        assert EmitFrom(ts, timestamp, k) == rest;
      }
    }
  }

  lemma {:induction false} EmitFromSorted(ts: Tables, timestamp: nat, k: nat)
    requires k <= 2 * EventTypeQty
    ensures SortedByKey(EmitFrom(ts, timestamp, k))
    decreases 2 * EventTypeQty - k
  {
    if k < 2 * EventTypeQty {
      EmitFromSorted(ts, timestamp, k + 1);
      var ch := ChannelOfKey(k);
      var e := TypeOfKey(k);
      var rest := EmitFrom(ts, timestamp, k + 1);
      if Qualifies(ts[ch][e.Index()], e) {
        var ev0 := EventFor(ts, ch, e, timestamp);
        assert EmitFrom(ts, timestamp, k) == [ev0] + rest;
        assert EventKey(ev0) == k;
        ConsSorted(ev0, rest);
      } else {
        assert EmitFrom(ts, timestamp, k) == rest;
      }
    }
  }

  /** Events in strictly increasing table position. */
  predicate SortedByKey(evs: seq<PowerEvent>) {
    forall i, j :: 0 <= i < j < |evs| ==> EventKey(evs[i]) < EventKey(evs[j])
  }

  lemma ConsSorted(ev0: PowerEvent, rest: seq<PowerEvent>)
    requires SortedByKey(rest)
    requires forall j :: 0 <= j < |rest| ==> EventKey(ev0) < EventKey(rest[j])
    ensures SortedByKey([ev0] + rest)
  {
    var evs := [ev0] + rest;
    forall i, j | 0 <= i < j < |evs|
      ensures EventKey(evs[i]) < EventKey(evs[j])
    {
      assert evs[j] == rest[j - 1];
      if i > 0 {
        assert evs[i] == rest[i - 1];
      }
    }
  }

  lemma {:induction false} EmitFromComplete(ts: Tables, timestamp: nat, k: nat, ch: Channel, e: EventType)
    requires k <= KeyOf(ch, e) && Qualifies(ts[ch][e.Index()], e)
    ensures Reported(EmitFrom(ts, timestamp, k), ch, e)
    decreases 2 * EventTypeQty - k
  {
    assert k < 2 * EventTypeQty;
    var evs := EmitFrom(ts, timestamp, k);
    var ch0 := ChannelOfKey(k);
    var e0 := TypeOfKey(k);
    var rest := EmitFrom(ts, timestamp, k + 1);
    assert evs == (if Qualifies(ts[ch0][e0.Index()], e0) then [EventFor(ts, ch0, e0, timestamp)] + rest else rest);
    if KeyOf(ch, e) == k {
      assert ch0 == ch && e0.Index() == e.Index();
      TypeAtIndex(e);
      assert evs[0] in evs;
    } else {
      EmitFromComplete(ts, timestamp, k + 1, ch, e);
      var ev :| ev in rest && ev.channel == ch + 1 && ev.kind == e;
      assert ev in evs;
    }
  }

  /** Window close clears every count, reported or not; the accumulators and
      worst values are left stale, to be re-initialised by the next first
      occurrence. */
  function ClearCounts(ts: Tables): (ts': Tables)
    ensures forall ch: Channel, k :: 0 <= k < EventTypeQty ==> ts'[ch][k].count == 0
    ensures forall ch: Channel, k :: 0 <= k < EventTypeQty ==> ts'[ch][k].acc == ts[ch][k].acc && ts'[ch][k].worst == ts[ch][k].worst
  {
    seq(2, ch requires 0 <= ch < 2 => seq(EventTypeQty, k requires 0 <= k < EventTypeQty => ts[ch][k].(count := 0)))
  }

  /** Every count is non-decreasing from `ts` to `ts'`. */
  predicate CountsGrow(ts: Tables, ts': Tables) {
    forall ch: Channel, k :: 0 <= k < EventTypeQty ==> ts[ch][k].count <= ts'[ch][k].count
  }
}

=== FILE: common.dfy ===
/** Small shared vocabulary: optional values, per-channel pairs of readings and
    the 32-bit unsigned arithmetic the firmware's timestamps wrap around in. */
module Common {

  /** A value that may be absent, used for reads that can fail. */
  datatype Option<T> = None | Some(value: T)

  /** The two measurement channels (phases) of the meter, indexed from zero. */
  type Channel = c: nat | c < 2

  /** One real reading per channel. */
  datatype Pair = Pair(a: real, b: real)
  {
    function At(ch: Channel): real {
      if ch == 0 then a else b
    }

    function With(ch: Channel, x: real): (p: Pair)
      ensures p.At(ch) == x
      ensures forall other: Channel :: other != ch ==> p.At(other) == At(other)
    {
      if ch == 0 then Pair(x, b) else Pair(a, x)
    }
  }

  const Zero: Pair := Pair(0.0, 0.0)

  /** 2^32: the modulus of the firmware's `uint32_t` clock and timestamp fields. */
  const U32: nat := 0x1_0000_0000

  predicate IsU32(x: int) {
    0 <= x < U32
  }

  /** `a - b` computed in `uint32_t`: wraps around when `b > a`. */
  function Sub32(a: nat, b: nat): (d: nat)
    requires IsU32(a) && IsU32(b)
    ensures IsU32(d)
    ensures a >= b ==> d == a - b
    ensures a < b ==> d + b == a + U32
  {
    if a >= b then a - b else a - b + U32
  }

  /** `a + b` computed in `uint32_t`. */
  function Add32(a: nat, b: nat): (s: nat)
    requires IsU32(a) && IsU32(b)
    ensures IsU32(s)
    ensures a + b < U32 ==> s == a + b
    ensures a + b >= U32 ==> s + U32 == a + b
  {
    if a + b < U32 then a + b else a + b - U32
  }

  function Abs(x: real): (r: real)
    ensures r >= 0.0
    ensures r == x || r == -x
  {
    if x < 0.0 then -x else x
  }

  /** For a value below twice the modulus, `%` subtracts the modulus at most once. */
  lemma ModOnce(x: int, n: int)
    requires 0 < n && 0 <= x < 2 * n
    ensures x % n == if x < n then x else x - n
  {
    if x >= n {
      assert x == n + (x - n);
    }
  }
}

=== FILE: cycle.dfy ===
/** The per-channel cycle analyzer: voltage spikes are checked on every sample;
    a strict rising zero crossing of the voltage ends one AC cycle, and every
    crossing but the first one since a reset yields the cycle's frequency and
    RMS values, which are checked against the configured bands. */
module Cycle {
  import opened Common
  import opened PowerTypes
  import opened Classifier

  /** Per-channel cycle state: previous voltage, whether the next crossing is
      the first since a reset, start of the current cycle (microseconds), and
      the cycle's squared-value accumulators and sample count. */
  datatype CycleState = CycleState(lastV: real, firstRise: bool, startUs: nat, vAcc: real, iAcc: real, n: nat)
  {
    /** A measured cycle always has at least the crossing sample behind it. */
    predicate Valid() {
      IsU32(startUs) && (!firstRise ==> n >= 1)
    }
  }

  /** What the frequency and RMS formulas of a cycle are computed from. */
  datatype CycleSummary = CycleSummary(elapsedUs: nat, vAcc: real, iAcc: real, n: nat)

  /** A cycle's derived frequency and RMS voltage and current. */
  datatype CycleMetrics = CycleMetrics(freq: real, vrms: real, irms: real)

  /** The configured thresholds. */
  datatype Limits = Limits(peakMax: real, freqMax: real, freqMin: real, maxCurrent: Pair, voltageMax: real, voltageMin: real)

  /** The strict rising-crossing test: previous voltage below zero, current
      above zero (a sample of exactly zero is not a crossing). */
  predicate RisingCrossing(lastV: real, v: real) {
    lastV < 0.0 && v > 0.0
  }

  /** Whether this sample ends a measured cycle. */
  predicate Measures(cs: CycleState, v: real) {
    RisingCrossing(cs.lastV, v) && !cs.firstRise
  }

  /** What a cycle ending at `usecs` is measured from (power.c:176-178): the
      time since its start crossing on the `uint32_t` clock, and the cycle's
      own sums of squares and sample count. */
  function Summary(cs: CycleState, usecs: nat): (s: CycleSummary)
    requires cs.Valid() && IsU32(usecs)
    ensures IsU32(s.elapsedUs)
    ensures cs.startUs <= usecs ==> s.elapsedUs == usecs - cs.startUs
    ensures usecs < cs.startUs ==> s.elapsedUs + cs.startUs == usecs + U32
    ensures s.vAcc == cs.vAcc && s.iAcc == cs.iAcc && s.n == cs.n
    ensures !cs.firstRise ==> s.n >= 1
  {
    CycleSummary(Sub32(usecs, cs.startUs), cs.vAcc, cs.iAcc, cs.n)
  }

  /** The cycle-derived value that type `e` is checked on. */
  function Reading(e: EventType, m: CycleMetrics): real {
    match e
    case FrequencyHigh => m.freq
    case FrequencyLow => m.freq
    case Overcurrent => m.irms
    case _ => m.vrms
  }

  /** Whether a measured cycle is an occurrence of `e` on channel `ch`
      (spikes are not cycle events). */
  predicate Detects(e: EventType, m: CycleMetrics, lim: Limits, ch: Channel) {
    match e
    case VoltageSpike => false
    case FrequencyHigh => m.freq > lim.freqMax
    case FrequencyLow => m.freq < lim.freqMin
    case Overcurrent => m.irms > lim.maxCurrent.At(ch)
    case VoltageHigh => m.vrms > lim.voltageMax
    case VoltageLow => m.vrms < lim.voltageMin
  }

  function BumpIf(ts: Tables, ch: Channel, e: EventType, m: CycleMetrics, lim: Limits): (ts': Tables)
    ensures ts'[ch][e.Index()] == (if Detects(e, m, lim, ch) then Occur(ts[ch][e.Index()], e, Reading(e, m)) else ts[ch][e.Index()])
    ensures forall c: Channel, k :: 0 <= k < EventTypeQty && (c != ch || k != e.Index()) ==> ts'[c][k] == ts[c][k]
  {
    if Detects(e, m, lim, ch) then Bump(ts, ch, e, Reading(e, m)) else ts
  }

  /** Checks of one measured cycle: each of the five cycle types that the
      metrics fall into gets exactly one occurrence, with the value it is
      checked on; spikes and the other channel are untouched. */
  function ClassifyCycle(ts: Tables, ch: Channel, m: CycleMetrics, lim: Limits): (ts': Tables)
    ensures forall e: EventType ::
      ts'[ch][e.Index()] == (if Detects(e, m, lim, ch) then Occur(ts[ch][e.Index()], e, Reading(e, m)) else ts[ch][e.Index()])
    ensures forall c: Channel :: c != ch ==> ts'[c] == ts[c]
  {
    var t1 := BumpIf(ts, ch, FrequencyHigh, m, lim);
    var t2 := BumpIf(t1, ch, FrequencyLow, m, lim);
    var t3 := BumpIf(t2, ch, Overcurrent, m, lim);
    var t4 := BumpIf(t3, ch, VoltageHigh, m, lim);
    var t5 := BumpIf(t4, ch, VoltageLow, m, lim);
    forall e: EventType
      ensures t5[ch][e.Index()] == (if Detects(e, m, lim, ch) then Occur(ts[ch][e.Index()], e, Reading(e, m)) else ts[ch][e.Index()])
    {
      if e.VoltageSpike? {
      } else if e.FrequencyHigh? {
      } else if e.FrequencyLow? {
      } else if e.Overcurrent? {
      } else if e.VoltageHigh? {
      } else {
        assert e.VoltageLow?;
      }
    }
    assert forall c: Channel :: c != ch ==> t5[c] == ts[c] by {
      forall c: Channel | c != ch
        ensures t5[c] == ts[c]
      {
        assert forall k :: 0 <= k < EventTypeQty ==> t5[c][k] == ts[c][k];
      }
    }
    t5
  }

  /** The detector's state after a sample: a strict rising crossing arms the
      detector and starts a new cycle at this sample; otherwise the sample is
      added to the current cycle. The previous voltage becomes this one. */
  function NextCycle(cs: CycleState, v: real, i: real, usecs: nat): (cs': CycleState)
    requires cs.Valid() && IsU32(usecs)
    ensures cs'.Valid() && cs'.lastV == v
    ensures RisingCrossing(cs.lastV, v) ==> cs' == CycleState(v, false, usecs, v * v, i * i, 1)
    ensures !RisingCrossing(cs.lastV, v) ==>
      cs' == CycleState(v, cs.firstRise, cs.startUs, cs.vAcc + v * v, cs.iAcc + i * i, cs.n + 1)
  {
    var restarted := if RisingCrossing(cs.lastV, v) then CycleState(cs.lastV, false, usecs, 0.0, 0.0, 0) else cs;
    CycleState(v, restarted.firstRise, restarted.startUs, restarted.vAcc + v * v, restarted.iAcc + i * i, restarted.n + 1)
  }

  /** One sample on one channel (power.c, body of the per-channel loop).
      `metricsOf` stands for the floating-point formulas that turn a cycle
      summary into frequency and RMS values. */
  function ChannelStep(cs: CycleState, ts: Tables, ch: Channel, v: real, i: real, usecs: nat,
                       lim: Limits, metricsOf: CycleSummary -> CycleMetrics): (res: (CycleState, Tables))
    requires cs.Valid() && IsU32(usecs)
    ensures res.0 == NextCycle(cs, v, i, usecs)
    // spikes: one occurrence per sample whose magnitude exceeds the ceiling
    ensures res.1[ch][VoltageSpike.Index()] ==
      if Abs(v) > lim.peakMax then Occur(ts[ch][VoltageSpike.Index()], VoltageSpike, v) else ts[ch][VoltageSpike.Index()]
    // cycle events: only on a measured cycle, one occurrence per detected type
    ensures forall e: EventType | e != VoltageSpike ::
      res.1[ch][e.Index()] ==
      (if Measures(cs, v) && Detects(e, metricsOf(Summary(cs, usecs)), lim, ch)
       then Occur(ts[ch][e.Index()], e, Reading(e, metricsOf(Summary(cs, usecs))))
       else ts[ch][e.Index()])
    ensures forall c: Channel :: c != ch ==> res.1[c] == ts[c]
  {
    var ts1 := if Abs(v) > lim.peakMax then Bump(ts, ch, VoltageSpike, v) else ts;
    var ts2 := if Measures(cs, v) then ClassifyCycle(ts1, ch, metricsOf(Summary(cs, usecs)), lim) else ts1;
    (NextCycle(cs, v, i, usecs), ts2)
  }
}

=== FILE: fallback.dfy ===
/** The flash fallback: while the server is unreachable and flash storage is
    enabled, a backlog of measurements or a full event buffer makes the power task
    pause sampling, convert one minute of measurements into a flash record,
    move both event buffers to flash, and resume sampling unless all three
    stages failed. The flash driver's writes are inputs: whether the record
    write succeeds, and which write attempt of each drain is the first to
    fail. */
module Fallback {
  import opened Common
  import opened PowerTypes
  import opened RingBuffer
  import opened MinuteAggregation

  /** Which element a drain loop writes on each pass. `AsWritten` is the
      firmware's loop, which writes the element at the loop index while it
      deletes the oldest one; `OldestFirst` writes the element it deletes. */
  datatype DrainPolicy = AsWritten | OldestFirst

  /** What a drain loop leaves: the buffer, the elements written to flash in
      order, and whether it stopped at a failed write. */
  datatype Drained<T> = Drained(ring: Ring<T>, written: seq<T>, failed: bool)

  /** The firmware's drain loop (power.c, event and internal-event loops of
      the fallback) from loop index `i`: while `i` is below the current count,
      read the element at index `i`, stop if the write fails (attempt number
      `failAt` is the first to fail), otherwise delete the oldest element and
      go on with `i + 1`. Every success removes one element and moves the
      index one on, so the `j`-th write is of the element `2 * j` places past
      the starting index, and the loop ends once it has passed half the
      buffer. */
  function DrainFrom<T>(r: Ring<T>, i: nat, failAt: nat): (d: Drained<T>)
    requires r.Valid() && i <= failAt
    ensures d.ring.Valid() && SameShape(r, d.ring)
    ensures |d.written| <= r.count && d.ring.Contents() == r.Contents()[|d.written|..]
    ensures forall j :: 0 <= j < |d.written| ==> i + 2 * j < r.count && d.written[j] == r.Contents()[i + 2 * j]
    ensures d.failed <==> i + 2 * |d.written| < r.count
    ensures d.failed ==> i + |d.written| == failAt
    ensures !d.failed ==> i + |d.written| <= failAt
    decreases r.count
  {
    if i >= r.count then Drained(r, [], false)
    else
      var x := Read(r, i).value;
      if i == failAt then Drained(r, [], true)
      else
        var r1 := Delete(r, 1).0;
        var rest := DrainFrom(r1, i + 1, failAt);
        DrainStep(r.Contents(), x, i, rest.written, rest.ring.Contents());
        Drained(rest.ring, [x] + rest.written, rest.failed)
  }

  /** One successful pass of the firmware's loop, composed with the rest,
      on the buffer's contents `s` before and `s[1..]` after the deletion. */
  lemma DrainStep<T>(s: seq<T>, x: T, i: nat, w: seq<T>, rem: seq<T>)
    requires i < |s| && x == s[i]
    requires |w| < |s| && rem == s[1..][|w|..]
    requires forall j :: 0 <= j < |w| ==> i + 1 + 2 * j < |s| - 1 && w[j] == s[1..][i + 1 + 2 * j]
    ensures rem == s[1 + |w|..]
    ensures forall j :: 0 <= j < 1 + |w| ==> i + 2 * j < |s| && ([x] + w)[j] == s[i + 2 * j]
  {
    DropDrop(s, 1, |w|);
    forall j | 0 <= j < 1 + |w|
      ensures i + 2 * j < |s| && ([x] + w)[j] == s[i + 2 * j]
    {
      if j > 0 {
        assert ([x] + w)[j] == w[j - 1];
      }
    }
  }

  /** The corrected drain loop from attempt number `k`: always write the
      oldest element, and delete it once the write succeeded. */
  function DrainOldest<T>(r: Ring<T>, k: nat, failAt: nat): (d: Drained<T>)
    requires r.Valid() && k <= failAt
    ensures d.ring.Valid() && SameShape(r, d.ring)
    ensures d.written + d.ring.Contents() == r.Contents()
    ensures d.failed <==> d.ring.count > 0
    ensures d.failed ==> k + |d.written| == failAt
    ensures !d.failed ==> k + |d.written| <= failAt
    decreases r.count
  {
    if r.count == 0 then Drained(r, [], false)
    else if k == failAt then Drained(r, [], true)
    else
      var x := Oldest(r);
      var r1 := Delete(r, 1).0;
      var rest := DrainOldest(r1, k + 1, failAt);
      assert [x] + rest.written + rest.ring.Contents() == [x] + r1.Contents();
      Drained(rest.ring, [x] + rest.written, rest.failed)
  }

  /** One drain stage under either policy, with the first failing write at
      attempt `failAt`. Both stop at the first failed write and delete
      exactly one oldest element per successful write; they differ in what
      they write. */
  function Drain<T>(r: Ring<T>, policy: DrainPolicy, failAt: nat): (d: Drained<T>)
    requires r.Valid()
    ensures d.ring.Valid() && SameShape(r, d.ring)
    ensures |d.written| <= r.count && d.ring.Contents() == r.Contents()[|d.written|..]
    ensures d.failed ==> d.ring.count > 0 && |d.written| == failAt
    ensures !d.failed ==> |d.written| <= failAt
    ensures policy == OldestFirst ==> d.written + d.ring.Contents() == r.Contents() && (d.failed <==> d.ring.count > 0)
    ensures policy == AsWritten ==>
      && (forall j :: 0 <= j < |d.written| ==> 2 * j < r.count && d.written[j] == r.Contents()[2 * j])
      && (d.failed <==> 2 * |d.written| < r.count)
  {
    match policy
    case AsWritten => DrainFrom(r, 0, failAt)
    case OldestFirst =>
      var d := DrainOldest(r, 0, failAt);
      assert d.ring.Contents() == r.Contents()[|d.written|..] by {
        assert r.Contents() == d.written + d.ring.Contents();
      }
      d
  }

  /** When no write fails, the firmware's loop writes only the first half of
      the buffer's positions, rounded up, and leaves the rest. */
  lemma AsWrittenStopsHalfway<T>(r: Ring<T>)
    requires r.Valid()
    ensures var d := Drain(r, AsWritten, r.count);
      && !d.failed
      && r.count <= 2 * |d.written| <= r.count + 1
      && d.ring.count == r.count - |d.written|
  {
    var d := Drain(r, AsWritten, r.count);
    if |d.written| > 0 {
      var j := |d.written| - 1;
      assert 2 * j < r.count;
    }
  }

  /** The firmware's loop loses an element: with three buffered events and
      every write succeeding it writes the first and the third, deletes the
      first two, and leaves the third behind to be written again; the second
      is neither written nor kept. */
  lemma AsWrittenLosesSecond<T>(r: Ring<T>)
    requires r.Valid() && r.count == 3
    ensures var s := r.Contents(); var d := Drain(r, AsWritten, 3);
      d.written == [s[0], s[2]] && d.ring.Contents() == [s[2]] && !d.failed
  {
    var s := r.Contents();
    var d := Drain(r, AsWritten, 3);
    AsWrittenStopsHalfway(r);
    assert |d.written| == 2;
    assert d.written[0] == s[0] && d.written[1] == s[2];
  }

  /** With the corrected loop and no failing write, the whole buffer is
      written in order and the buffer ends empty. */
  lemma OldestFirstWritesAll<T>(r: Ring<T>, failAt: nat)
    requires r.Valid() && failAt >= r.count
    ensures var d := Drain(r, OldestFirst, failAt);
      d.written == r.Contents() && d.ring.count == 0 && !d.failed
  {
    var d := Drain(r, OldestFirst, failAt);
    assert |d.written| <= r.count;
    assert d.ring.count == 0;
    assert d.written + [] == r.Contents();
  }

  // ---------------------------------------------------------------------
  // The controller.

  /** Outcomes of the flash driver: whether the record write succeeds, and
      the attempt number of the first failing write of the event and the
      internal-event drain (a drain stops there, so later outcomes do not
      matter; a number past the buffer's count means no write fails). */
  datatype FlashWrites = FlashWrites(recordOk: bool, eventFailAt: nat, internalFailAt: nat)

  /** The buffers the fallback works on, and the flash record left from the
      last conversion. */
  datatype Buffers = Buffers(
    data: Ring<PowerData>,
    events: Ring<PowerEvent>,
    internal: Ring<InternalEvent>,
    record: FlashRecord)
  {
    predicate Valid() {
      && data.Valid() && events.Valid() && internal.Valid()
      && events.Capacity() == PowerEventBufferSize
    }
  }

  /** The trigger (power.c:305): not connected, flash storage enabled, and a
      backlog of at least 60 measurements or either event buffer full. */
  predicate ShouldDrain(connected: bool, useFlash: bool, b: Buffers)
    requires b.Valid()
  {
    && !connected && useFlash
    && (b.data.count >= FlashMinuteBacklog || b.events.Full() || b.internal.Full())
  }

  /** What one fallback run does: the buffers afterwards, the `flash_error`
      count, whether sampling resumes, and what was written to flash. */
  datatype FallbackResult = FallbackResult(
    bufs: Buffers,
    flashError: nat,
    resumed: bool,
    recordWritten: Option<FlashRecord>,
    eventsWritten: seq<PowerEvent>,
    internalWritten: seq<InternalEvent>)

  /** Whether the minute conversion runs and succeeds. */
  predicate Converts(b: Buffers, phases: nat)
    requires b.Valid() && phases <= 2
  {
    b.data.count >= FlashMinuteBacklog && Convert(b.data, b.record, phases).2 == 0
  }

  /** The fallback body (power.c:306-336), run once the trigger holds. Each
      stage adds at most one to `flash_error`: the record write fails after a
      successful conversion, or a drain stops at a failed write. A failed
      conversion is not counted. Sampling resumes iff fewer than three
      stages failed. */
  function RunFallback(b: Buffers, phases: nat, policy: DrainPolicy, w: FlashWrites): (res: FallbackResult)
    requires b.Valid() && phases <= 2
    ensures res.bufs.Valid()
    ensures res.flashError <= 3
    ensures res.resumed <==> res.flashError < 3
    // sampling stays paused exactly when every stage failed
    ensures !res.resumed <==>
      && Converts(b, phases) && !w.recordOk
      && Drain(b.events, policy, w.eventFailAt).failed
      && Drain(b.internal, policy, w.internalFailAt).failed
    // a failed conversion never counts as a flash error
    ensures b.data.count >= FlashMinuteBacklog && !Converts(b, phases) ==> res.flashError <= 2 && res.recordWritten.None?
    // the measurement buffer is converted only with a backlog of 60
    ensures b.data.count < FlashMinuteBacklog ==>
      res.bufs.data == b.data && res.bufs.record == b.record && res.recordWritten.None?
    ensures b.data.count >= FlashMinuteBacklog ==>
      var c := Convert(b.data, b.record, phases);
      && res.bufs.data.Contents() == c.0.Contents() && res.bufs.record == c.1
      && (res.recordWritten.Some? <==> c.2 == 0 && w.recordOk)
      && (res.recordWritten.Some? ==> res.recordWritten.value == c.1)
    // each drain deletes one oldest element per successful write
    ensures |res.eventsWritten| <= b.events.count && res.bufs.events.Contents() == b.events.Contents()[|res.eventsWritten|..]
    ensures |res.internalWritten| <= b.internal.count && res.bufs.internal.Contents() == b.internal.Contents()[|res.internalWritten|..]
    // with the corrected loop nothing is lost
    ensures policy == OldestFirst ==>
      && res.eventsWritten + res.bufs.events.Contents() == b.events.Contents()
      && res.internalWritten + res.bufs.internal.Contents() == b.internal.Contents()
  {
    var convert := b.data.count >= FlashMinuteBacklog;
    var c := Convert(b.data, b.record, phases);
    var data' := if convert then c.0 else b.data;
    var record' := if convert then c.1 else b.record;
    var converted := convert && c.2 == 0;
    var dataError := if converted && !w.recordOk then 1 else 0;
    var de := Drain(b.events, policy, w.eventFailAt);
    var di := Drain(b.internal, policy, w.internalFailAt);
    var flashError := dataError + (if de.failed then 1 else 0) + (if di.failed then 1 else 0);
    FallbackResult(
      Buffers(data', de.ring, di.ring, record'),
      flashError,
      flashError < 3,
      if converted && w.recordOk then Some(record') else None,
      de.written,
      di.written)
  }

  /** With every flash write succeeding and the corrected loops, both event
      buffers end empty, nothing is counted as an error and sampling resumes. */
  lemma AllWritesSucceed(b: Buffers, phases: nat)
    requires b.Valid() && phases <= 2
    ensures var res := RunFallback(b, phases, OldestFirst, FlashWrites(true, b.events.count, b.internal.count));
      && res.flashError == 0 && res.resumed
      && res.eventsWritten == b.events.Contents() && res.bufs.events.count == 0
      && res.internalWritten == b.internal.Contents() && res.bufs.internal.count == 0
  {
    OldestFirstWritesAll(b.events, b.events.count);
    OldestFirstWritesAll(b.internal, b.internal.count);
  }
}

=== FILE: processing.dfy ===
/** The power-processing task (`power_processing_task`) as a step function:
    each turn of its loop either times out on an empty receive, which feeds
    the stall detector, or processes one sample, which feeds the window sums,
    the cycle analyzers of both channels and the waveform snapshot, and may
    close the one-second window. Closing a window stores a measurement,
    reports the qualifying events, clears the counts and, while the server
    is unreachable, may run the flash fallback. */
module Processing {
  import opened Common
  import opened PowerTypes
  import opened RingBuffer
  import opened Waveform
  import opened Classifier
  import opened Cycle
  import opened Fallback

  /** Empty receives in a row after which sampling counts as stopped. */
  const StallLimit: nat := 3

  /** The settings the power task reads on every turn. */
  datatype Config = Config(phases: nat, limits: Limits, useFlash: bool, policy: DrainPolicy)
  {
    predicate Valid() {
      phases <= 2
    }
  }

  /** One sample, already scaled to volts and amperes: the microsecond clock
      and the RTC second it was taken at, and both channels' voltage and
      current (the second channel's values are only read with two phases). */
  datatype Sample = Sample(usecs: nat, rtc: nat, v: Pair, i: Pair)
  {
    predicate Valid() {
      IsU32(usecs) && IsU32(rtc)
    }
  }

  /** What a turn of the loop receives. */
  datatype Input = Empty | Received(sample: Sample)

  /** What the rest of the system supplies on a turn: the clock reading that
      raised events are stamped with, whether the server is connected, and
      the flash driver's outcomes should the fallback run. */
  datatype Env = Env(now: nat, connected: bool, writes: FlashWrites)

  /** The one-second window: samples processed, the first sample's clock and
      RTC second, and the per-channel sums of squares and of products. */
  datatype Window = Window(processed: nat, firstUs: nat, firstRtc: nat, vAcc: Pair, iAcc: Pair, pAcc: Pair)

  /** The task's state between turns. `running` is the sampling status the
      stall detector clears; `paused` is set while the fallback has paused
      sampling and not restarted it; `raised` logs the internal events the
      task raises. */
  datatype State = State(
    emptyRecv: nat,
    running: bool,
    paused: bool,
    win: Window,
    v: Pair,
    i: Pair,
    cycles: seq<CycleState>,
    tables: Tables,
    wave: Snapshot,
    bufs: Buffers,
    raised: seq<InternalEvent>)
  {
    predicate Valid() {
      && emptyRecv < StallLimit
      && IsU32(win.firstUs) && IsU32(win.firstRtc)
      && |cycles| == 2 && cycles[0].Valid() && cycles[1].Valid()
      && wave.Valid()
      && bufs.Valid()
    }
  }

  /** The state the power task starts its loop in (power.c:50-95): no empty
      receive counted, sampling started and not paused, an empty window, both
      detectors waiting for a first crossing with empty cycles, every count
      cleared, the measurement buffer emptied over `dataSlots`, and nothing
      raised. What the firmware leaves uninitialised (the previous readings,
      the previous voltages of the detectors, the accumulators and worst
      values of the tallies) and what it does not set up here (the
      waveform, the event buffers, the flash record) is given. */
  function Init(dataSlots: seq<PowerData>, events: Ring<PowerEvent>, internal: Ring<InternalEvent>,
                record: FlashRecord, wave: Snapshot, v: Pair, i: Pair, lastV: Pair, ts: Tables): (st: State)
    requires 0 < |dataSlots| < IndexLimit
    requires events.Valid() && events.Capacity() == PowerEventBufferSize && internal.Valid()
    requires wave.Valid()
    ensures st.Valid()
    ensures st.emptyRecv == 0 && st.running && !st.paused && st.raised == []
    ensures st.win.processed == 0 && st.win.vAcc == Zero && st.win.iAcc == Zero && st.win.pAcc == Zero
    ensures forall ch: Channel :: st.cycles[ch].firstRise && st.cycles[ch].lastV == lastV.At(ch) && st.cycles[ch].n == 0
    ensures forall ch: Channel, k :: 0 <= k < EventTypeQty ==> st.tables[ch][k].count == 0
    ensures st.bufs.data.Contents() == [] && st.bufs.data.Capacity() == |dataSlots|
    ensures st.bufs.events == events && st.bufs.internal == internal
  {
    State(0, true, false, Window(0, 0, 0, Zero, Zero, Zero), v, i,
          [CycleState(lastV.a, true, 0, 0.0, 0.0, 0), CycleState(lastV.b, true, 0, 0.0, 0.0, 0)],
          ClearCounts(ts), wave, Buffers(RingBuffer.Empty(dataSlots), events, internal, record), [])
  }

  // ---------------------------------------------------------------------
  // Stall detector.

  /** An empty receive (power.c:98-108): only while sampling runs, it counts
      towards the limit; the third in a row clears the running status, resets
      the count and raises a "sampling stopped" event. */
  function OnEmpty(st: State, now: nat): (st': State)
    requires st.Valid()
    ensures st'.Valid()
    ensures st'.win == st.win && st'.bufs == st.bufs && st'.tables == st.tables && st'.wave == st.wave
    ensures st'.cycles == st.cycles && st'.v == st.v && st'.i == st.i && st'.paused == st.paused
    ensures !st.running ==> st' == st
    ensures st.running && st'.running ==> st'.emptyRecv == st.emptyRecv + 1 && st'.raised == st.raised
    ensures st.running && !st'.running ==>
      st.emptyRecv + 1 == StallLimit && st'.emptyRecv == 0 && st'.raised == st.raised + [InternalEvent(SamplingStopped, 0, now)]
  {
    if !st.running then st
    else if st.emptyRecv + 1 >= StallLimit then
      st.(emptyRecv := 0, running := false, raised := st.raised + [InternalEvent(SamplingStopped, 0, now)])
    else st.(emptyRecv := st.emptyRecv + 1)
  }

  /** `k` empty receives in a row. */
  function Empties(st: State, k: nat, now: nat): (st': State)
    requires st.Valid()
    ensures st'.Valid()
    decreases k
  {
    if k == 0 then st else Empties(OnEmpty(st, now), k - 1, now)
  }

  /** The stall detector fires on exactly the third empty receive in a row:
      after one or two, sampling still counts as running and nothing is
      raised; after three it is stopped with one "sampling stopped" event. */
  lemma StallAfterThree(st: State, now: nat)
    requires st.Valid() && st.running && st.emptyRecv == 0
    ensures Empties(st, 1, now).running && Empties(st, 1, now).raised == st.raised
    ensures Empties(st, 2, now).running && Empties(st, 2, now).raised == st.raised
    ensures !Empties(st, 3, now).running
    ensures Empties(st, 3, now).raised == st.raised + [InternalEvent(SamplingStopped, 0, now)]
    ensures Empties(st, 3, now).emptyRecv == 0
  {
    var s1 := OnEmpty(st, now);
    var s2 := OnEmpty(s1, now);
    assert Empties(st, 2, now) == Empties(s1, 1, now) == s2;
  }

  /** Once sampling is not running, empty receives change nothing. */
  lemma {:induction false} StoppedStaysQuiet(st: State, k: nat, now: nat)
    requires st.Valid() && !st.running
    ensures Empties(st, k, now) == st
    decreases k
  {
    if k > 0 {
      StoppedStaysQuiet(OnEmpty(st, now), k - 1, now);
    }
  }

  // ---------------------------------------------------------------------
  // One sample.

  /** Start of a sample (power.c:115-134): the first sample of a window sets
      its first clock and RTC second; a sample from another RTC second
      restarts the window from itself (sums zeroed, counter restarted) and
      re-arms both cycle detectors. Then the sample is counted. Returns the
      window and whether the detectors were re-armed. */
  function BeginSample(w: Window, smp: Sample): (res: (Window, bool))
    ensures res.0.processed >= 1 && res.0.firstRtc == smp.rtc
    ensures res.1 <==> w.processed != 0 && w.firstRtc != smp.rtc
    ensures w.processed == 0 || res.1 ==> res.0.processed == 1 && res.0.firstUs == smp.usecs
    ensures res.1 ==> res.0.vAcc == Zero && res.0.iAcc == Zero && res.0.pAcc == Zero
    ensures !res.1 ==> res.0.vAcc == w.vAcc && res.0.iAcc == w.iAcc && res.0.pAcc == w.pAcc
    ensures w.processed != 0 && !res.1 ==> res.0.processed == w.processed + 1 && res.0.firstUs == w.firstUs
  {
    var w1 := if w.processed == 0 then w.(firstUs := smp.usecs, firstRtc := smp.rtc) else w;
    var reset := w1.firstRtc != smp.rtc;
    var w2 := if reset then Window(0, smp.usecs, smp.rtc, Zero, Zero, Zero) else w1;
    (w2.(processed := w2.processed + 1), reset)
  }

  /** The values of this sample as the power task holds them: the second channel
      keeps its previous values unless two phases are configured. */
  function Readings(last: Pair, now: Pair, phases: nat): Pair {
    Pair(now.a, if phases == 2 then now.b else last.b)
  }

  /** Adds the sample to the window sums (power.c:136-158); the second
      channel's sums grow only with two phases. */
  function Accumulate(w: Window, v: Pair, i: Pair, phases: nat): Window {
    var two := phases == 2;
    w.(vAcc := Pair(w.vAcc.a + v.a * v.a, if two then w.vAcc.b + v.b * v.b else w.vAcc.b),
       iAcc := Pair(w.iAcc.a + i.a * i.a, if two then w.iAcc.b + i.b * i.b else w.iAcc.b),
       pAcc := Pair(w.pAcc.a + v.a * i.a, if two then w.pAcc.b + v.b * i.b else w.pAcc.b))
  }

  /** Re-arming a cycle detector: the next crossing only starts a cycle. */
  function Rearm(cs: CycleState, reset: bool): (cs': CycleState)
    requires cs.Valid()
    ensures cs'.Valid()
    ensures cs'.firstRise <==> reset || cs.firstRise
    ensures cs'.lastV == cs.lastV && cs'.startUs == cs.startUs
    ensures cs'.vAcc == cs.vAcc && cs'.iAcc == cs.iAcc && cs'.n == cs.n
  {
    if reset then cs.(firstRise := true) else cs
  }

  /** The per-channel loop (power.c:161-254): both channels, in order, each
      with its cycle detector, whatever the number of phases. */
  function Channels(cycles: seq<CycleState>, ts: Tables, v: Pair, i: Pair, usecs: nat,
                    lim: Limits, metricsOf: CycleSummary -> CycleMetrics): (res: (seq<CycleState>, Tables))
    requires |cycles| == 2 && cycles[0].Valid() && cycles[1].Valid() && IsU32(usecs)
    ensures |res.0| == 2 && res.0[0].Valid() && res.0[1].Valid()
    ensures res.0[0] == NextCycle(cycles[0], v.a, i.a, usecs) && res.0[1] == NextCycle(cycles[1], v.b, i.b, usecs)
    // each channel's table is what its own step makes of it
    ensures res.1[0] == ChannelStep(cycles[0], ts, 0, v.a, i.a, usecs, lim, metricsOf).1[0]
    ensures res.1[1] == ChannelStep(cycles[1], ts, 1, v.b, i.b, usecs, lim, metricsOf).1[1]
    ensures CountsGrow(ts, res.1)
  {
    var r0 := ChannelStep(cycles[0], ts, 0, v.a, i.a, usecs, lim, metricsOf);
    var r1 := ChannelStep(cycles[1], r0.1, 1, v.b, i.b, usecs, lim, metricsOf);
    StepCountsGrow(cycles[0], ts, 0, v.a, i.a, usecs, lim, metricsOf);
    StepCountsGrow(cycles[1], r0.1, 1, v.b, i.b, usecs, lim, metricsOf);
    StepOwnTable(cycles[1], r0.1, ts, 1, v.b, i.b, usecs, lim, metricsOf);
    ([r0.0, r1.0], r1.1)
  }

  /** A channel step reads and writes only its own channel's table. */
  lemma StepOwnTable(cs: CycleState, ts: Tables, ts2: Tables, ch: Channel, v: real, i: real, usecs: nat,
                     lim: Limits, metricsOf: CycleSummary -> CycleMetrics)
    requires cs.Valid() && IsU32(usecs) && ts[ch] == ts2[ch]
    ensures ChannelStep(cs, ts, ch, v, i, usecs, lim, metricsOf).1[ch] == ChannelStep(cs, ts2, ch, v, i, usecs, lim, metricsOf).1[ch]
  {
    var t := ChannelStep(cs, ts, ch, v, i, usecs, lim, metricsOf).1[ch];
    var t2 := ChannelStep(cs, ts2, ch, v, i, usecs, lim, metricsOf).1[ch];
    forall k | 0 <= k < EventTypeQty
      ensures t[k] == t2[k]
    {
      TypeAtIndex(TypeAt(k));
    }
  }

  /** A channel step never lowers a count. */
  lemma StepCountsGrow(cs: CycleState, ts: Tables, ch: Channel, v: real, i: real, usecs: nat,
                       lim: Limits, metricsOf: CycleSummary -> CycleMetrics)
    requires cs.Valid() && IsU32(usecs)
    ensures CountsGrow(ts, ChannelStep(cs, ts, ch, v, i, usecs, lim, metricsOf).1)
  {
    var ts' := ChannelStep(cs, ts, ch, v, i, usecs, lim, metricsOf).1;
    forall c: Channel, k | 0 <= k < EventTypeQty
      ensures ts[c][k].count <= ts'[c][k].count
    {
      TypeAtIndex(TypeAt(k));
      var e := TypeAt(k);
      assert e.Index() == k;
    }
  }

  /** Whether the window is over: a full second on the microsecond clock,
      measured in `uint32_t` from the window's first sample (power.c:267). */
  predicate Closes(w: Window, usecs: nat)
    requires IsU32(w.firstUs) && IsU32(usecs)
  {
    Sub32(usecs, w.firstUs) >= WindowUsec
  }

  // ---------------------------------------------------------------------
  // Window close.

  /** The window's measurement (power.c:268-279): timestamped with the RTC
      second plus the whole seconds of the first sample's clock, lasting from
      the first sample to this one, with RMS values and mean power over the
      samples processed. `sqrt` stands for the square root. */
  function MeasurementOf(w: Window, usecs: nat, sqrt: real -> real): (d: PowerData)
    requires w.processed >= 1 && IsU32(w.firstUs) && IsU32(w.firstRtc) && IsU32(usecs)
    ensures d.samples == w.processed && IsU32(d.timestamp) && IsU32(d.durationUsec)
    ensures w.firstRtc + w.firstUs / 1000000 < U32 ==> d.timestamp == w.firstRtc + w.firstUs / 1000000
    ensures w.firstRtc + w.firstUs / 1000000 >= U32 ==> d.timestamp + U32 == w.firstRtc + w.firstUs / 1000000
    ensures w.firstUs <= usecs ==> d.durationUsec == usecs - w.firstUs
    ensures usecs < w.firstUs ==> d.durationUsec + w.firstUs == usecs + U32
    ensures d.p.a * (w.processed as real) == w.pAcc.a && d.p.b * (w.processed as real) == w.pAcc.b
    ensures d.vrms == Pair(sqrt(w.vAcc.a / w.processed as real), sqrt(w.vAcc.b / w.processed as real))
    ensures d.irms == Pair(sqrt(w.iAcc.a / w.processed as real), sqrt(w.iAcc.b / w.processed as real))
  {
    var n := w.processed as real;
    PowerData(
      Add32(w.firstRtc, w.firstUs / 1000000),
      Sub32(usecs, w.firstUs),
      w.processed,
      Pair(sqrt(w.vAcc.a / n), sqrt(w.vAcc.b / n)),
      Pair(sqrt(w.iAcc.a / n), sqrt(w.iAcc.b / n)),
      Pair(w.pAcc.a / n, w.pAcc.b / n))
  }

  /** Reporting the window's events (power.c:289-303): each report goes to
      the reject-on-full event buffer, and the push that fills it raises one
      "events buffer full" event carrying the count. */
  function Report(events: Ring<PowerEvent>, raised: seq<InternalEvent>, evs: seq<PowerEvent>, now: nat)
    : (res: (Ring<PowerEvent>, seq<InternalEvent>))
    requires events.Valid()
    ensures res.0.Valid() && SameShape(events, res.0)
    ensures var room := events.Capacity() - events.count;
      res.0.Contents() == events.Contents() + evs[..if |evs| < room then |evs| else room]
    ensures res.1 == raised + (if !events.Full() && events.count + |evs| >= events.Capacity()
                               then [InternalEvent(PowerEventsBufferFull, events.Capacity(), now)] else [])
  {
    var pushed := PushAllReject(events, evs);
    PushAllRejectSignalsOnce(events, evs);
    (pushed.0, raised + seq(pushed.1, _ => InternalEvent(PowerEventsBufferFull, events.Capacity(), now)))
  }

  /** The window-close block (power.c:267-336): store the measurement, report
      the qualifying events, restart the sums and clear every count; then, if
      the trigger holds, run the fallback with sampling paused, leaving it
      paused iff all three stages failed. */
  function CloseWindow(st: State, usecs: nat, cfg: Config, env: Env, sqrt: real -> real): (st': State)
    requires st.Valid() && cfg.Valid() && IsU32(usecs) && st.win.processed >= 1
    ensures st'.Valid()
    ensures st'.win == Window(0, st.win.firstUs, st.win.firstRtc, Zero, Zero, Zero)
    ensures forall ch: Channel, k :: 0 <= k < EventTypeQty ==> st'.tables[ch][k].count == 0
    ensures st'.emptyRecv == st.emptyRecv && st'.running == st.running && st'.wave == st.wave && st'.cycles == st.cycles
    ensures st'.v == st.v && st'.i == st.i
  {
    var d := MeasurementOf(st.win, usecs, sqrt);
    var data := PushOverwrite(st.bufs.data, d);
    var rep := Report(st.bufs.events, st.raised, Emit(st.tables, d.timestamp), env.now);
    var bufs := st.bufs.(data := data, events := rep.0);
    var st1 := st.(win := Window(0, st.win.firstUs, st.win.firstRtc, Zero, Zero, Zero),
                   tables := ClearCounts(st.tables), bufs := bufs, raised := rep.1);
    if ShouldDrain(env.connected, cfg.useFlash, bufs) then
      var fb := RunFallback(bufs, cfg.phases, cfg.policy, env.writes);
      st1.(bufs := fb.bufs, paused := !fb.resumed)
    else st1
  }

  // ---------------------------------------------------------------------
  // The loop.

  /** One sample through the power task (power.c:110-336). */
  function OnSample(st: State, smp: Sample, cfg: Config, env: Env,
                    sqrt: real -> real, metricsOf: CycleSummary -> CycleMetrics): (st': State)
    requires st.Valid() && cfg.Valid() && smp.Valid()
    ensures st'.Valid()
    ensures st'.emptyRecv == 0 && st'.running == st.running
    // the previous readings become this sample's, and the waveform gets them
    ensures st'.v == Readings(st.v, smp.v, cfg.phases) && st'.i == Readings(st.i, smp.i, cfg.phases)
    ensures st'.wave == Write(st.wave, Point(Readings(st.v, smp.v, cfg.phases), Readings(st.i, smp.i, cfg.phases)))
    // each detector, re-armed on an RTC change, takes this sample's readings
    ensures var reset := BeginSample(st.win, smp).1;
      var v := Readings(st.v, smp.v, cfg.phases);
      var i := Readings(st.i, smp.i, cfg.phases);
      && st'.cycles[0] == NextCycle(Rearm(st.cycles[0], reset), v.a, i.a, smp.usecs)
      && st'.cycles[1] == NextCycle(Rearm(st.cycles[1], reset), v.b, i.b, smp.usecs)
  {
    var b := BeginSample(st.win, smp);
    var v := Readings(st.v, smp.v, cfg.phases);
    var i := Readings(st.i, smp.i, cfg.phases);
    var w := Accumulate(b.0, v, i, cfg.phases);
    var cycles := [Rearm(st.cycles[0], b.1), Rearm(st.cycles[1], b.1)];
    var ch := Channels(cycles, st.tables, v, i, smp.usecs, cfg.limits, metricsOf);
    var wave := Write(st.wave, Point(v, i));
    var st1 := st.(emptyRecv := 0, win := w, v := v, i := i, cycles := ch.0, tables := ch.1, wave := wave);
    if Closes(w, smp.usecs) then CloseWindow(st1, smp.usecs, cfg, env, sqrt) else st1
  }

  /** One turn of the power task's loop. */
  function Step(st: State, input: Input, cfg: Config, env: Env,
                sqrt: real -> real, metricsOf: CycleSummary -> CycleMetrics): (st': State)
    requires st.Valid() && cfg.Valid()
    requires input.Received? ==> input.sample.Valid()
    ensures st'.Valid()
    ensures input.Received? ==> st'.emptyRecv == 0
  {
    match input
    case Empty => OnEmpty(st, env.now)
    case Received(smp) => OnSample(st, smp, cfg, env, sqrt, metricsOf)
  }

  // ---------------------------------------------------------------------
  // Properties of a sample.

  /** A sample from a new RTC second restarts the window from itself: the
      counter is 1, the sums hold only this sample, the window does not close
      on it, both detectors are re-armed so no cycle is measured on it, and
      the event counts carry on (only spikes can be added). */
  lemma RtcChangeRestarts(st: State, smp: Sample, cfg: Config, env: Env,
                          sqrt: real -> real, metricsOf: CycleSummary -> CycleMetrics)
    requires st.Valid() && cfg.Valid() && smp.Valid()
    requires st.win.processed != 0 && st.win.firstRtc != smp.rtc
    ensures var st' := OnSample(st, smp, cfg, env, sqrt, metricsOf);
      && st'.win.processed == 1 && st'.win.firstUs == smp.usecs && st'.win.firstRtc == smp.rtc
      && st'.win.vAcc.a == smp.v.a * smp.v.a && st'.win.iAcc.a == smp.i.a * smp.i.a
      && st'.win.pAcc.a == smp.v.a * smp.i.a
      && st'.bufs == st.bufs
      && CountsGrow(st.tables, st'.tables)
      && (forall ch: Channel, e: EventType | e != VoltageSpike :: st'.tables[ch][e.Index()] == st.tables[ch][e.Index()])
    // both detectors are re-armed; a detector that sees no crossing keeps its
    // cycle accumulating
    ensures var st' := OnSample(st, smp, cfg, env, sqrt, metricsOf);
      var v := Readings(st.v, smp.v, cfg.phases);
      var i := Readings(st.i, smp.i, cfg.phases);
      forall ch: Channel | !RisingCrossing(st.cycles[ch].lastV, v.At(ch)) ::
        RearmedCarriesOn(st.cycles[ch], st'.cycles[ch], v.At(ch), i.At(ch))
  {
    var b := BeginSample(st.win, smp);
    var v := Readings(st.v, smp.v, cfg.phases);
    var i := Readings(st.i, smp.i, cfg.phases);
    var w := Accumulate(b.0, v, i, cfg.phases);
    assert b.1;
    assert !Closes(w, smp.usecs) by {
      assert Sub32(smp.usecs, smp.usecs) == 0;
    }
    var cycles := [Rearm(st.cycles[0], b.1), Rearm(st.cycles[1], b.1)];
    RearmedMeasureNothing(cycles, st.tables, v, i, smp.usecs, cfg.limits, metricsOf);
    RtcChangeRearms(st, smp, cfg, env, sqrt, metricsOf);
  }

  /** A re-armed detector carrying on its cycle with readings `v` and `i`. */
  predicate RearmedCarriesOn(cs: CycleState, cs': CycleState, v: real, i: real) {
    && cs'.firstRise && cs'.startUs == cs.startUs
    && cs'.vAcc == cs.vAcc + v * v && cs'.iAcc == cs.iAcc + i * i && cs'.n == cs.n + 1
  }

  /** A re-armed detector that sees no crossing keeps accumulating its cycle. */
  lemma RearmWithoutCrossing(cs: CycleState, v: real, i: real, usecs: nat)
    requires cs.Valid() && IsU32(usecs) && !RisingCrossing(cs.lastV, v)
    ensures RearmedCarriesOn(cs, NextCycle(Rearm(cs, true), v, i, usecs), v, i)
  {
  }

  /** After an RTC change both detectors are re-armed, and a detector that
      sees no crossing on this sample keeps its cycle accumulating. */
  lemma RtcChangeRearms(st: State, smp: Sample, cfg: Config, env: Env,
                        sqrt: real -> real, metricsOf: CycleSummary -> CycleMetrics)
    requires st.Valid() && cfg.Valid() && smp.Valid()
    requires st.win.processed != 0 && st.win.firstRtc != smp.rtc
    ensures var st' := OnSample(st, smp, cfg, env, sqrt, metricsOf);
      var v := Readings(st.v, smp.v, cfg.phases);
      var i := Readings(st.i, smp.i, cfg.phases);
      forall ch: Channel | !RisingCrossing(st.cycles[ch].lastV, v.At(ch)) ::
        RearmedCarriesOn(st.cycles[ch], st'.cycles[ch], v.At(ch), i.At(ch))
  {
    var st' := OnSample(st, smp, cfg, env, sqrt, metricsOf);
    var v := Readings(st.v, smp.v, cfg.phases);
    var i := Readings(st.i, smp.i, cfg.phases);
    assert BeginSample(st.win, smp).1;
    forall ch: Channel | !RisingCrossing(st.cycles[ch].lastV, v.At(ch))
      ensures RearmedCarriesOn(st.cycles[ch], st'.cycles[ch], v.At(ch), i.At(ch))
    {
      RearmWithoutCrossing(st.cycles[ch], v.At(ch), i.At(ch), smp.usecs);
      if ch == 0 {
        assert st'.cycles[0] == NextCycle(Rearm(st.cycles[0], true), v.a, i.a, smp.usecs);
      } else {
        assert st'.cycles[1] == NextCycle(Rearm(st.cycles[1], true), v.b, i.b, smp.usecs);
      }
    }
  }

  /** With both detectors re-armed, a sample measures no cycle: only spike
      counts can change. */
  lemma RearmedMeasureNothing(cycles: seq<CycleState>, ts: Tables, v: Pair, i: Pair, usecs: nat,
                              lim: Limits, metricsOf: CycleSummary -> CycleMetrics)
    requires |cycles| == 2 && cycles[0].Valid() && cycles[1].Valid() && IsU32(usecs)
    requires cycles[0].firstRise && cycles[1].firstRise
    ensures var ts' := Channels(cycles, ts, v, i, usecs, lim, metricsOf).1;
      forall ch: Channel, e: EventType | e != VoltageSpike :: ts'[ch][e.Index()] == ts[ch][e.Index()]
  {
    var r0 := ChannelStep(cycles[0], ts, 0, v.a, i.a, usecs, lim, metricsOf);
    var r1 := ChannelStep(cycles[1], r0.1, 1, v.b, i.b, usecs, lim, metricsOf);
    assert !Measures(cycles[0], v.a) && !Measures(cycles[1], v.b);
  }

  /** A sample that does not close the window leaves the buffers and the
      raised events alone, and no event count goes down: each channel's table
      is what that channel's step makes of it, so a reading whose magnitude
      exceeds the ceiling adds exactly one spike occurrence to its channel. */
  lemma OpenWindowKeepsBuffers(st: State, smp: Sample, cfg: Config, env: Env,
                               sqrt: real -> real, metricsOf: CycleSummary -> CycleMetrics)
    requires st.Valid() && cfg.Valid() && smp.Valid()
    requires !Closes(Accumulate(BeginSample(st.win, smp).0, Readings(st.v, smp.v, cfg.phases), Readings(st.i, smp.i, cfg.phases), cfg.phases), smp.usecs)
    ensures var st' := OnSample(st, smp, cfg, env, sqrt, metricsOf);
      && st'.bufs == st.bufs && st'.raised == st.raised && st'.paused == st.paused
      && st'.win.processed >= 1
      && CountsGrow(st.tables, st'.tables)
    ensures var st' := OnSample(st, smp, cfg, env, sqrt, metricsOf);
      var reset := BeginSample(st.win, smp).1;
      var v := Readings(st.v, smp.v, cfg.phases);
      var i := Readings(st.i, smp.i, cfg.phases);
      && st'.tables[0] == ChannelStep(Rearm(st.cycles[0], reset), st.tables, 0, v.a, i.a, smp.usecs, cfg.limits, metricsOf).1[0]
      && st'.tables[1] == ChannelStep(Rearm(st.cycles[1], reset), st.tables, 1, v.b, i.b, smp.usecs, cfg.limits, metricsOf).1[1]
      && (forall ch: Channel :: st'.tables[ch][VoltageSpike.Index()] ==
            if Abs(v.At(ch)) > cfg.limits.peakMax
            then Occur(st.tables[ch][VoltageSpike.Index()], VoltageSpike, v.At(ch))
            else st.tables[ch][VoltageSpike.Index()])
  {
  }

  /** A sample that neither restarts nor closes the window is counted and
      added to the sums (power.c:136-158): the first channel's sums grow by
      v², i² and v·i; the second channel's grow likewise with two phases and
      are left alone otherwise. */
  lemma OpenSampleAccumulates(st: State, smp: Sample, cfg: Config, env: Env,
                              sqrt: real -> real, metricsOf: CycleSummary -> CycleMetrics)
    requires st.Valid() && cfg.Valid() && smp.Valid()
    requires st.win.processed == 0 || st.win.firstRtc == smp.rtc
    requires !Closes(Accumulate(BeginSample(st.win, smp).0, Readings(st.v, smp.v, cfg.phases), Readings(st.i, smp.i, cfg.phases), cfg.phases), smp.usecs)
    ensures var st' := OnSample(st, smp, cfg, env, sqrt, metricsOf);
      && st'.win.processed == st.win.processed + 1
      && st'.win.vAcc.a == st.win.vAcc.a + smp.v.a * smp.v.a
      && st'.win.iAcc.a == st.win.iAcc.a + smp.i.a * smp.i.a
      && st'.win.pAcc.a == st.win.pAcc.a + smp.v.a * smp.i.a
      && (cfg.phases == 2 ==>
            && st'.win.vAcc.b == st.win.vAcc.b + smp.v.b * smp.v.b
            && st'.win.iAcc.b == st.win.iAcc.b + smp.i.b * smp.i.b
            && st'.win.pAcc.b == st.win.pAcc.b + smp.v.b * smp.i.b)
      && (cfg.phases != 2 ==> st'.win.vAcc.b == st.win.vAcc.b && st'.win.iAcc.b == st.win.iAcc.b && st'.win.pAcc.b == st.win.pAcc.b)
  {
    OpenWindowSums(st, smp, cfg, env, sqrt, metricsOf);
    SampleAdds(st.win, st.v, st.i, smp, cfg.phases, OnSample(st, smp, cfg, env, sqrt, metricsOf).win);
  }

  /** Readings of a sample that does not restart the window, added to it. */
  lemma SampleAdds(w: Window, lastV: Pair, lastI: Pair, smp: Sample, phases: nat, w': Window)
    requires w.processed == 0 || w.firstRtc == smp.rtc
    requires w' == Accumulate(BeginSample(w, smp).0, Readings(lastV, smp.v, phases), Readings(lastI, smp.i, phases), phases)
    ensures w'.processed == w.processed + 1
    ensures w'.vAcc.a == w.vAcc.a + smp.v.a * smp.v.a
    ensures w'.iAcc.a == w.iAcc.a + smp.i.a * smp.i.a
    ensures w'.pAcc.a == w.pAcc.a + smp.v.a * smp.i.a
    ensures phases == 2 ==> w'.vAcc.b == w.vAcc.b + smp.v.b * smp.v.b && w'.iAcc.b == w.iAcc.b + smp.i.b * smp.i.b && w'.pAcc.b == w.pAcc.b + smp.v.b * smp.i.b
    ensures phases != 2 ==> w'.vAcc.b == w.vAcc.b && w'.iAcc.b == w.iAcc.b && w'.pAcc.b == w.pAcc.b
  {
  }

  /** Inside the window, the window after a sample is the started window
      with the sample's readings added. */
  lemma OpenWindowSums(st: State, smp: Sample, cfg: Config, env: Env,
                       sqrt: real -> real, metricsOf: CycleSummary -> CycleMetrics)
    requires st.Valid() && cfg.Valid() && smp.Valid()
    requires !Closes(Accumulate(BeginSample(st.win, smp).0, Readings(st.v, smp.v, cfg.phases), Readings(st.i, smp.i, cfg.phases), cfg.phases), smp.usecs)
    ensures OnSample(st, smp, cfg, env, sqrt, metricsOf).win ==
      Accumulate(BeginSample(st.win, smp).0, Readings(st.v, smp.v, cfg.phases), Readings(st.i, smp.i, cfg.phases), cfg.phases)
  {
  }

  /** Every sample is written to the waveform snapshot (power.c:256-263):
      each trace's window drops its oldest value and gains this sample's
      reading, the second channel's being the previous one with one phase. */
  lemma SampleWritesWaveform(st: State, smp: Sample, cfg: Config, env: Env,
                             sqrt: real -> real, metricsOf: CycleSummary -> CycleMetrics)
    requires st.Valid() && cfg.Valid() && smp.Valid()
    ensures var st' := OnSample(st, smp, cfg, env, sqrt, metricsOf);
      var p := Point(Readings(st.v, smp.v, cfg.phases), Readings(st.i, smp.i, cfg.phases));
      forall t: Trace :: st'.wave.Window(t) == st.wave.Window(t)[1..] + [p.On(t)]
  {
  }

  /** A sample that closes the window (power.c:267) ends it: the counter
      and the sums restart at zero, every event count is cleared, the
      measurement of the window including this sample is stored, and
      while no fallback can run it is appended to the measurement buffer,
      which keeps its newest entries. */
  lemma ClosingSampleCloses(st: State, smp: Sample, cfg: Config, env: Env,
                            sqrt: real -> real, metricsOf: CycleSummary -> CycleMetrics)
    requires st.Valid() && cfg.Valid() && smp.Valid()
    requires Closes(Accumulate(BeginSample(st.win, smp).0, Readings(st.v, smp.v, cfg.phases), Readings(st.i, smp.i, cfg.phases), cfg.phases), smp.usecs)
    ensures var st' := OnSample(st, smp, cfg, env, sqrt, metricsOf);
      var w := Accumulate(BeginSample(st.win, smp).0, Readings(st.v, smp.v, cfg.phases), Readings(st.i, smp.i, cfg.phases), cfg.phases);
      var d := MeasurementOf(w, smp.usecs, sqrt);
      && st'.win.processed == 0 && st'.win.vAcc == Zero && st'.win.iAcc == Zero && st'.win.pAcc == Zero
      && (forall ch: Channel, k :: 0 <= k < EventTypeQty ==> st'.tables[ch][k].count == 0)
      && d.samples == w.processed
      && ((env.connected || !cfg.useFlash) ==>
            st'.bufs.data.Contents() == Last(st.bufs.data.Contents() + [d], st.bufs.data.Capacity()))
  {
    var b := BeginSample(st.win, smp);
    var w := Accumulate(b.0, Readings(st.v, smp.v, cfg.phases), Readings(st.i, smp.i, cfg.phases), cfg.phases);
    PushOverwriteLast(st.bufs.data, MeasurementOf(w, smp.usecs, sqrt));
  }

  /** A sample that closes the window reports the events of the tables its
      own channel steps leave (power.c:161-254 then 289-303): the qualifying
      ones are appended to the event buffer as far as they fit while no
      fallback can run, and the raised events are those of that report. */
  lemma ClosingSampleReports(st: State, smp: Sample, cfg: Config, env: Env,
                             sqrt: real -> real, metricsOf: CycleSummary -> CycleMetrics)
    requires st.Valid() && cfg.Valid() && smp.Valid()
    requires Closes(Accumulate(BeginSample(st.win, smp).0, Readings(st.v, smp.v, cfg.phases), Readings(st.i, smp.i, cfg.phases), cfg.phases), smp.usecs)
    ensures var st' := OnSample(st, smp, cfg, env, sqrt, metricsOf);
      var b := BeginSample(st.win, smp);
      var v := Readings(st.v, smp.v, cfg.phases);
      var i := Readings(st.i, smp.i, cfg.phases);
      var d := MeasurementOf(Accumulate(b.0, v, i, cfg.phases), smp.usecs, sqrt);
      var ts := Channels([Rearm(st.cycles[0], b.1), Rearm(st.cycles[1], b.1)], st.tables, v, i, smp.usecs, cfg.limits, metricsOf).1;
      var evs := Emit(ts, d.timestamp);
      var room := st.bufs.events.Capacity() - st.bufs.events.count;
      && st'.raised == Report(st.bufs.events, st.raised, evs, env.now).1
      && (forall ch: Channel, e: EventType :: Qualifies(ts[ch][e.Index()], e) <==> Reported(evs, ch, e))
      && ((env.connected || !cfg.useFlash) ==>
            st'.bufs.events.Contents() == st.bufs.events.Contents() + evs[..if |evs| < room then |evs| else room])
  {
    var b := BeginSample(st.win, smp);
    var v := Readings(st.v, smp.v, cfg.phases);
    var i := Readings(st.i, smp.i, cfg.phases);
    var w := Accumulate(b.0, v, i, cfg.phases);
    var ch := Channels([Rearm(st.cycles[0], b.1), Rearm(st.cycles[1], b.1)], st.tables, v, i, smp.usecs, cfg.limits, metricsOf);
    var st1 := st.(emptyRecv := 0, win := w, v := v, i := i, cycles := ch.0, tables := ch.1, wave := Write(st.wave, Point(v, i)));
    assert OnSample(st, smp, cfg, env, sqrt, metricsOf) == CloseWindow(st1, smp.usecs, cfg, env, sqrt);
    CloseWindowFallback(st1, smp.usecs, cfg, env, sqrt);
    EmitExactly(ch.1, MeasurementOf(w, smp.usecs, sqrt).timestamp);
    if env.connected || !cfg.useFlash {
      ClosedWindowReports(st1, smp.usecs, cfg, env, sqrt);
    }
  }

  /** With one phase, a sample inside the window leaves the second
      channel's sums alone, yet the second channel's detector and waveform
      traces are fed the previous second-channel values again. */
  lemma OnePhaseRepeatsSecondChannel(st: State, smp: Sample, cfg: Config, env: Env,
                                     sqrt: real -> real, metricsOf: CycleSummary -> CycleMetrics)
    requires st.Valid() && cfg.Valid() && smp.Valid() && cfg.phases != 2
    requires st.win.processed != 0 && st.win.firstRtc == smp.rtc && !Closes(st.win, smp.usecs)
    ensures var st' := OnSample(st, smp, cfg, env, sqrt, metricsOf);
      && st'.win.processed == st.win.processed + 1
      && st'.win.vAcc.b == st.win.vAcc.b && st'.win.iAcc.b == st.win.iAcc.b && st'.win.pAcc.b == st.win.pAcc.b
      && st'.win.vAcc.a == st.win.vAcc.a + smp.v.a * smp.v.a
      && st'.v == Pair(smp.v.a, st.v.b) && st'.i == Pair(smp.i.a, st.i.b)
      && st'.cycles[1].lastV == st.v.b
      && st'.wave.Window(1) == st.wave.Window(1)[1..] + [st.v.b]
  {
    var v := Readings(st.v, smp.v, cfg.phases);
    var i := Readings(st.i, smp.i, cfg.phases);
    var w := Accumulate(BeginSample(st.win, smp).0, v, i, cfg.phases);
    assert !Closes(w, smp.usecs);
    assert v == Pair(smp.v.a, st.v.b);
  }

  /** The fallback runs exactly when its trigger (power.c:305) holds on the
      buffers as they are once the measurement and the reports are stored:
      then the buffers are what it leaves and sampling stays paused iff it
      did not resume; otherwise the stored buffers and the pause state are
      kept. The raised events are those of the reports. */
  lemma CloseWindowFallback(st: State, usecs: nat, cfg: Config, env: Env, sqrt: real -> real)
    requires st.Valid() && cfg.Valid() && IsU32(usecs) && st.win.processed >= 1
    ensures var st' := CloseWindow(st, usecs, cfg, env, sqrt);
      var d := MeasurementOf(st.win, usecs, sqrt);
      var rep := Report(st.bufs.events, st.raised, Emit(st.tables, d.timestamp), env.now);
      var b1 := st.bufs.(data := PushOverwrite(st.bufs.data, d), events := rep.0);
      && b1.Valid()
      && st'.raised == rep.1
      && (ShouldDrain(env.connected, cfg.useFlash, b1) ==>
            var fb := RunFallback(b1, cfg.phases, cfg.policy, env.writes);
            st'.bufs == fb.bufs && st'.paused == !fb.resumed)
      && (!ShouldDrain(env.connected, cfg.useFlash, b1) ==> st'.bufs == b1 && st'.paused == st.paused)
  {
  }

  /** A window that closes while the server is connected (or flash storage
      is off) appends its measurement to the measurement buffer and the
      qualifying events, as many as fit, to the event buffer; every event
      that qualified is reported with its count, and all counts restart. */
  lemma ClosedWindowReports(st: State, usecs: nat, cfg: Config, env: Env, sqrt: real -> real)
    requires st.Valid() && cfg.Valid() && IsU32(usecs) && st.win.processed >= 1
    requires env.connected || !cfg.useFlash
    ensures var st' := CloseWindow(st, usecs, cfg, env, sqrt);
      var d := MeasurementOf(st.win, usecs, sqrt);
      var evs := Emit(st.tables, d.timestamp);
      var room := st.bufs.events.Capacity() - st.bufs.events.count;
      && st'.bufs.data.Contents() == Last(st.bufs.data.Contents() + [d], st.bufs.data.Capacity())
      && st'.bufs.events.Contents() == st.bufs.events.Contents() + evs[..if |evs| < room then |evs| else room]
      && (forall ev :: ev in evs ==> IsReportFor(st.tables, d.timestamp, ev))
      && (forall ch: Channel, e: EventType :: Qualifies(st.tables[ch][e.Index()], e) <==> Reported(evs, ch, e))
      && st'.paused == st.paused
  {
    var d := MeasurementOf(st.win, usecs, sqrt);
    PushOverwriteLast(st.bufs.data, d);
    EmitExactly(st.tables, d.timestamp);
  }
}

=== FILE: ring.dfy ===
/** The fixed-capacity circular buffer behind the power-data, power-event and
    internal-event stores: an array of slots plus `head`, `tail` and `count`,
    every index taken modulo the capacity. `Contents` abstracts a buffer to the
    logical sequence of its elements, oldest first, and every operation is
    specified on that sequence. Each operation runs under the buffer's mutex in
    the firmware, so each is a single atomic step here. */
module RingBuffer {
  import opened Common

  /** `head`, `tail` and `count` are 16-bit in the firmware. */
  const IndexLimit: nat := 0x1_0000

  datatype Ring<T> = Ring(slots: seq<T>, head: nat, tail: nat, count: nat)
  {
    function Capacity(): nat {
      |slots|
    }

    predicate Valid() {
      && 0 < |slots| <= IndexLimit - 1
      && head < |slots|
      && tail < |slots|
      && count <= |slots|
      && head == (tail + count) % |slots|
    }

    predicate Full()
      requires Valid()
    {
      count == |slots|
    }

    /** Slot holding the element `i` places after the oldest one. */
    function Slot(i: nat): (k: nat)
      requires Valid()
      ensures k < |slots|
    {
      (tail + i) % |slots|
    }

    /** The elements still stored, oldest first. */
    function Contents(): (s: seq<T>)
      requires Valid()
      ensures |s| == count
    {
      seq(count, i requires 0 <= i < count => slots[Slot(i)])
    }
  }

  /** An empty buffer over the given backing slots. */
  function Empty<T>(slots: seq<T>): (r: Ring<T>)
    requires 0 < |slots| < IndexLimit
    ensures r.Valid() && r.Capacity() == |slots|
    ensures r.Contents() == []
  {
    Ring(slots, 0, 0, 0)
  }

  /** Two buffers of the same capacity. */
  predicate SameShape<T, U>(r: Ring<T>, r': Ring<U>) {
    |r.slots| == |r'.slots|
  }

  /** The `i`-th slot after `tail`, for `tail + i` below twice the capacity. */
  lemma SlotOnce<T>(r: Ring<T>, i: nat)
    requires r.Valid() && i < |r.slots|
    ensures r.Slot(i) == if r.tail + i < |r.slots| then r.tail + i else r.tail + i - |r.slots|
  {
    ModOnce(r.tail + i, |r.slots|);
  }

  /** The slots of the stored elements are pairwise distinct, and all differ
      from `head` unless the buffer is full. */
  lemma SlotsDistinct<T>(r: Ring<T>, i: nat, j: nat)
    requires r.Valid() && i < j <= r.count && j < |r.slots|
    ensures r.Slot(i) != r.Slot(j)
  {
    SlotOnce(r, i);
    SlotOnce(r, j);
  }

  /** The power-data discipline (`add_power_data`): write at `head` and advance
      it; when the buffer is full the oldest element is evicted by advancing
      `tail`, so a push never fails. */
  function PushOverwrite<T>(r: Ring<T>, x: T): (r': Ring<T>)
    requires r.Valid()
    ensures r'.Valid() && SameShape(r, r')
    ensures r'.head == (r.head + 1) % r.Capacity()
    ensures r'.slots[r.head] == x
    ensures !r.Full() ==> r'.tail == r.tail && r'.count == r.count + 1
    ensures !r.Full() ==> r'.Contents() == r.Contents() + [x]
    ensures r.Full() ==> r'.count == r.count && r'.tail == (r.tail + 1) % r.Capacity()
    ensures r.Full() ==> r'.Contents() == r.Contents()[1..] + [x]
  {
    var c := |r.slots|;
    var slots := r.slots[r.head := x];
    if r.count == c then
      var r' := Ring(slots, (r.head + 1) % c, (r.tail + 1) % c, r.count);
      PushFullContents(r, x, r');
      r'
    else
      var r' := Ring(slots, (r.head + 1) % c, r.tail, r.count + 1);
      PushRoomContents(r, x, r');
      r'
  }

  lemma PushRoomContents<T>(r: Ring<T>, x: T, r': Ring<T>)
    requires r.Valid() && r.count < |r.slots|
    requires r' == Ring(r.slots[r.head := x], (r.head + 1) % |r.slots|, r.tail, r.count + 1)
    ensures r'.Valid()
    ensures r'.Contents() == r.Contents() + [x]
  {
    var c := |r.slots|;
    ModOnce(r.tail + r.count, c);
    ModOnce(r.head + 1, c);
    ModOnce(r.tail + r.count + 1, c);
    forall i | 0 <= i < r.count
      ensures r'.Contents()[i] == r.Contents()[i]
    {
      SlotsDistinct(r, i, r.count);
    }
    assert r'.Contents()[r.count] == x;
  }

  lemma PushFullContents<T>(r: Ring<T>, x: T, r': Ring<T>)
    requires r.Valid() && r.count == |r.slots|
    requires r' == Ring(r.slots[r.head := x], (r.head + 1) % |r.slots|, (r.tail + 1) % |r.slots|, r.count)
    ensures r'.Valid()
    ensures r'.Contents() == r.Contents()[1..] + [x]
  {
    var c := |r.slots|;
    ModOnce(r.tail + c, c);
    assert r.head == r.tail;
    ModOnce(r.tail + 1, c);
    ModOnce(r'.tail + c, c);
    forall i | 0 <= i < c
      ensures r'.Contents()[i] == (r.Contents()[1..] + [x])[i]
    {
      ShiftedSlot(r, x, r', i);
    }
  }

  /** After a full push, the new `i`-th slot is the old `(i+1)`-th one, and the
      last one is the overwritten `head`. */
  lemma ShiftedSlot<T>(r: Ring<T>, x: T, r': Ring<T>, i: nat)
    requires r.Valid() && r.count == |r.slots| && r.head == r.tail
    requires r'.Valid() && r'.slots == r.slots[r.head := x]
    requires r'.tail == (r.tail + 1) % |r.slots| && i < |r.slots|
    ensures i < |r.slots| - 1 ==> r'.Slot(i) == r.Slot(i + 1) && r'.Slot(i) != r.head
    ensures i == |r.slots| - 1 ==> r'.Slot(i) == r.head
  {
    var c := |r.slots|;
    ModOnce(r.tail + 1, c);
    SlotOnce(r', i);
    SlotOnce(r, 0);
    if i < c - 1 {
      SlotOnce(r, i + 1);
      SlotsDistinct(r, 0, i + 1);
    }
  }

  /** Result of a push into a reject-on-full buffer: the new buffer, the
      firmware's status code (0 or -1), and whether this push is the one that
      made the buffer full. */
  datatype Pushed<T> = Pushed(ring: Ring<T>, status: int, becameFull: bool)

  /** The power-event discipline (`add_power_event`): a full buffer rejects the
      element with -1 and is left as it was; otherwise the element is appended
      at `head`, and the push that fills the last free slot reports it. */
  function PushReject<T>(r: Ring<T>, x: T): (p: Pushed<T>)
    requires r.Valid()
    ensures p.ring.Valid() && SameShape(r, p.ring)
    ensures r.Full() ==> p == Pushed(r, -1, false)
    ensures !r.Full() ==> p.status == 0 && p.ring.Contents() == r.Contents() + [x]
    ensures !r.Full() ==> p.ring.head == (r.head + 1) % r.Capacity() && p.ring.tail == r.tail
    ensures p.becameFull <==> !r.Full() && p.ring.Full()
  {
    if r.count == |r.slots| then
      Pushed(r, -1, false)
    else
      var r' := Ring(r.slots[r.head := x], (r.head + 1) % |r.slots|, r.tail, r.count + 1);
      PushRoomContents(r, x, r');
      Pushed(r', 0, r'.count == |r.slots|)
  }

  /** `get_power_data` / `get_power_event`: the element `index` places after
      the oldest one, or nothing when `index` is not below `count`. */
  function Read<T>(r: Ring<T>, index: nat): (o: Option<T>)
    requires r.Valid()
    ensures o.Some? <==> index < r.count
    ensures o.Some? ==> o.value == r.Contents()[index]
  {
    if index >= r.count then None else Some(r.slots[(r.tail + index) % |r.slots|])
  }

  /** The oldest element, as read at `tail`. */
  function Oldest<T>(r: Ring<T>): (x: T)
    requires r.Valid() && r.count > 0
    ensures x == r.Contents()[0]
  {
    SlotOnce(r, 0);
    r.slots[r.tail]
  }

  /** `delete_power_data` / `delete_power_events`: drop the `qty` oldest
      elements by advancing `tail`, or fail with -1 and change nothing when
      fewer than `qty` are stored. */
  function Delete<T>(r: Ring<T>, qty: nat): (res: (Ring<T>, int))
    requires r.Valid()
    ensures res.0.Valid() && SameShape(r, res.0)
    ensures qty > r.count ==> res == (r, -1)
    ensures qty <= r.count ==> res.1 == 0 && res.0.count == r.count - qty
    ensures qty <= r.count ==> res.0.Contents() == r.Contents()[qty..]
    ensures qty <= r.count ==> res.0.head == r.head && res.0.tail == (r.tail + qty) % r.Capacity()
  {
    if qty > r.count then
      (r, -1)
    else
      var r' := Ring(r.slots, r.head, (r.tail + qty) % |r.slots|, r.count - qty);
      DeleteContents(r, qty, r');
      (r', 0)
  }

  lemma DeleteContents<T>(r: Ring<T>, qty: nat, r': Ring<T>)
    requires r.Valid() && qty <= r.count
    requires r' == Ring(r.slots, r.head, (r.tail + qty) % |r.slots|, r.count - qty)
    ensures r'.Valid()
    ensures r'.Contents() == r.Contents()[qty..]
  {
    var c := |r.slots|;
    ModOnce(r.tail + qty, c);
    ModOnce(r.tail + r.count, c);
    ModOnce(r'.tail + r'.count, c);
    forall i | 0 <= i < r'.count
      ensures r'.Contents()[i] == r.Contents()[qty + i]
    {
      ModOnce(r'.tail + i, c);
      ModOnce(r.tail + qty + i, c);
    }
  }

  /** The last `n` elements of `s` (all of `s` when it is shorter). */
  function Last<T>(s: seq<T>, n: nat): (t: seq<T>)
    ensures |t| == if |s| < n then |s| else n
  {
    if |s| <= n then s else s[|s| - n..]
  }

  /** Pushing a sequence of elements into an overwrite-on-full buffer. */
  function PushAllOverwrite<T>(r: Ring<T>, xs: seq<T>): (r': Ring<T>)
    requires r.Valid()
    ensures r'.Valid() && SameShape(r, r')
    decreases |xs|
  {
    if |xs| == 0 then r else PushAllOverwrite(PushOverwrite(r, xs[0]), xs[1..])
  }

  /** An overwrite-on-full buffer always holds the most recent `Capacity()`
      elements ever pushed: pushing `C + 1` elements into an empty buffer of
      capacity `C` leaves elements 1..C, element 0 evicted. */
  lemma {:induction false} PushAllKeepsNewest<T>(r: Ring<T>, xs: seq<T>)
    requires r.Valid()
    ensures PushAllOverwrite(r, xs).Contents() == Last(r.Contents() + xs, r.Capacity())
    decreases |xs|
  {
    if |xs| > 0 {
      var c := r.Capacity();
      var r1 := PushOverwrite(r, xs[0]);
      PushOverwriteLast(r, xs[0]);
      PushAllKeepsNewest(r1, xs[1..]);
      LastOfLast(r.Contents() + [xs[0]], xs[1..], c);
      assert r.Contents() + [xs[0]] + xs[1..] == r.Contents() + xs;
    }
  }

  /** One overwriting push keeps the newest `Capacity()` elements. */
  lemma PushOverwriteLast<T>(r: Ring<T>, x: T)
    requires r.Valid()
    ensures PushOverwrite(r, x).Contents() == Last(r.Contents() + [x], r.Capacity())
  {
    if r.Full() {
      assert |r.Contents() + [x]| == r.Capacity() + 1;
    }
  }

  lemma DropDrop<T>(w: seq<T>, a: nat, b: nat)
    requires a + b <= |w|
    ensures w[a..][b..] == w[a + b..]
  {
  }

  /** Keeping the last `n` elements before appending more does not change the
      last `n` elements of the whole. */
  lemma LastOfLast<T>(u: seq<T>, v: seq<T>, n: nat)
    ensures Last(Last(u, n) + v, n) == Last(u + v, n)
  {
    if |u| > n {
      var w := u + v;
      var t := u[|u| - n..] + v;
      assert Last(u, n) == u[|u| - n..];
      assert t == w[|u| - n..] by {
        assert u[|u| - n..] + v == (u + v)[|u| - n..];
      }
      if |v| > 0 {
        assert Last(t, n) == t[|v|..];
        DropDrop(w, |u| - n, |v|);
      }
    }
  }

  /** Pushing a sequence of elements into a reject-on-full buffer; also
      reports how many of the pushes were the one that filled it. */
  function PushAllReject<T>(r: Ring<T>, xs: seq<T>): (res: (Ring<T>, nat))
    requires r.Valid()
    ensures res.0.Valid() && SameShape(r, res.0)
    decreases |xs|
  {
    if |xs| == 0 then (r, 0)
    else
      var p := PushReject(r, xs[0]);
      var rest := PushAllReject(p.ring, xs[1..]);
      (rest.0, rest.1 + if p.becameFull then 1 else 0)
  }

  /** With no deletions in between, a reject-on-full buffer keeps the oldest
      elements: it takes as many of `xs` as fit, and the "buffer full" signal
      is raised exactly once if the pushes reach capacity and never otherwise. */
  lemma {:induction false} PushAllRejectSignalsOnce<T>(r: Ring<T>, xs: seq<T>)
    requires r.Valid()
    ensures var res := PushAllReject(r, xs);
      var room := r.Capacity() - r.count;
      && res.0.Contents() == r.Contents() + xs[..if |xs| < room then |xs| else room]
      && res.1 == (if !r.Full() && r.count + |xs| >= r.Capacity() then 1 else 0)
    decreases |xs|
  {
    if |xs| > 0 {
      var p := PushReject(r, xs[0]);
      PushAllRejectSignalsOnce(p.ring, xs[1..]);
      if !r.Full() {
        var room := r.Capacity() - r.count;
        var k := if |xs| < room then |xs| else room;
        assert xs[1..][..k - 1] == xs[1..k];
        assert [xs[0]] + xs[1..k] == xs[..k];
      }
    }
  }
}

=== FILE: types.dfy ===
/** The records the power pipeline produces and stores, and the fixed tables
    and sizes it is built around. */
module PowerTypes {
  import opened Common

  /** The six power-quality anomalies, in the order of the firmware's event
      tables (the order in which they are checked and reported). */
  datatype EventType =
    | VoltageSpike
    | FrequencyHigh
    | FrequencyLow
    | Overcurrent
    | VoltageHigh
    | VoltageLow
  {
    /** Position of the type in the per-channel tables. */
    function Index(): (k: nat)
      ensures k < EventTypeQty
    {
      match this
      case VoltageSpike => 0
      case FrequencyHigh => 1
      case FrequencyLow => 2
      case Overcurrent => 3
      case VoltageHigh => 4
      case VoltageLow => 5
    }

    /** Occurrences needed within one window before the type is reported
        (`power_event_min_count`). */
    function MinCount(): (n: nat)
      ensures n >= 1
    {
      match this
      case VoltageSpike => 5
      case FrequencyHigh => 5
      case FrequencyLow => 1
      case Overcurrent => 6
      case VoltageHigh => 6
      case VoltageLow => 10
    }

    /** Whether a later occurrence replaces the recorded worst value when it is
        larger (highs and spikes) rather than smaller (lows). */
    predicate LargerIsWorse() {
      !(FrequencyLow? || VoltageLow?)
    }
  }

  const EventTypeQty: nat := 6

  /** The event type stored at table position `k`. */
  function TypeAt(k: nat): (e: EventType)
    requires k < EventTypeQty
    ensures e.Index() == k
  {
    if k == 0 then VoltageSpike
    else if k == 1 then FrequencyHigh
    else if k == 2 then FrequencyLow
    else if k == 3 then Overcurrent
    else if k == 4 then VoltageHigh
    else VoltageLow
  }

  lemma TypeAtIndex(e: EventType)
    ensures TypeAt(e.Index()) == e
  {
  }

  /** One aggregated one-second measurement (`power_data_t`). */
  datatype PowerData = PowerData(
    timestamp: nat,
    durationUsec: nat,
    samples: nat,
    vrms: Pair,
    irms: Pair,
    p: Pair)

  /** One reported anomaly (`power_event_t`); `channel` is 1 or 2. */
  datatype PowerEvent = PowerEvent(
    timestamp: nat,
    kind: EventType,
    channel: nat,
    count: nat,
    avg: real,
    worst: real)

  /** The diagnostic events this part of the firmware raises. */
  datatype InternalKind = SamplingStopped | PowerEventsBufferFull

  datatype InternalEvent = InternalEvent(kind: InternalKind, value: nat, time: nat)

  /** One minute of active energy per channel, as written to flash
      (`power_data_flash_t`). */
  datatype FlashRecord = FlashRecord(timestamp: nat, active: Pair, seconds: nat)

  /** `POWER_EVENT_BUFFER_SIZE`. */
  const PowerEventBufferSize: nat := 61

  /** Buffered one-second entries that make the flash fallback convert a minute. */
  const FlashMinuteBacklog: nat := 60

  /** Entries a minute needs before its flash record counts as complete. */
  const MinMinuteSeconds: nat := 15

  /** Length of one aggregation window, in microseconds. */
  const WindowUsec: nat := 1000000
}

=== FILE: waveform.dfy ===
/** The waveform snapshot: four traces (voltage and current of both channels)
    of the most recent `WaveformMaxQty` processed samples, written at a rolling
    position and read back non-destructively for live display. */
module Waveform {
  import opened Common

  /** `WAVEFORM_MAX_QTY`. */
  const WaveformMaxQty: nat := 50

  /** Trace numbers: 0 and 1 are the channel voltages, 2 and 3 the currents. */
  const TraceQty: nat := 4
  type Trace = t: nat | t < 4

  /** One processed sample as stored in the four traces. */
  datatype Point = Point(v: Pair, i: Pair)
  {
    function On(t: Trace): real {
      if t < 2 then v.At(t) else i.At(t - 2)
    }
  }

  datatype Snapshot = Snapshot(traces: seq<seq<real>>, pos: nat)
  {
    predicate Valid() {
      && |traces| == TraceQty
      && (forall t :: 0 <= t < |traces| ==> |traces[t]| == WaveformMaxQty)
      && pos < WaveformMaxQty
    }

    /** The last `WaveformMaxQty` values of trace `t`, oldest first. */
    function Window(t: Trace): (w: seq<real>)
      requires Valid()
      ensures |w| == WaveformMaxQty
    {
      seq(WaveformMaxQty, k requires 0 <= k < WaveformMaxQty => traces[t][(pos + k) % WaveformMaxQty])
    }
  }

  /** Write side (power.c, per sample): store the point at the write position
      in all four traces and advance the position. */
  function Write(w: Snapshot, x: Point): (w': Snapshot)
    requires w.Valid()
    ensures w'.Valid()
    ensures forall t: Trace :: w'.Window(t) == w.Window(t)[1..] + [x.On(t)]
  {
    var traces := seq(TraceQty, t requires 0 <= t < TraceQty => w.traces[t][w.pos := x.On(t)]);
    var w' := Snapshot(traces, (w.pos + 1) % WaveformMaxQty);
    forall t: Trace
      ensures w'.Window(t) == w.Window(t)[1..] + [x.On(t)]
    {
      WriteSlides(w, x, w', t);
    }
    w'
  }

  lemma WriteSlides(w: Snapshot, x: Point, w': Snapshot, t: Trace)
    requires w.Valid() && w'.Valid()
    requires w'.pos == (w.pos + 1) % WaveformMaxQty
    requires w'.traces[t] == w.traces[t][w.pos := x.On(t)]
    ensures w'.Window(t) == w.Window(t)[1..] + [x.On(t)]
  {
    var n := WaveformMaxQty;
    ModOnce(w.pos + 1, n);
    forall k | 0 <= k < n
      ensures w'.Window(t)[k] == (w.Window(t)[1..] + [x.On(t)])[k]
    {
      ModOnce(w'.pos + k, n);
      if k < n - 1 {
        ModOnce(w.pos + k + 1, n);
      }
    }
  }

  /** Writing a sequence of points, oldest first. */
  function WriteAll(w: Snapshot, xs: seq<Point>): (w': Snapshot)
    requires w.Valid()
    ensures w'.Valid()
    decreases |xs|
  {
    if |xs| == 0 then w else WriteAll(Write(w, xs[0]), xs[1..])
  }

  /** Trace `t` of a sequence of points. */
  function Values(xs: seq<Point>, t: Trace): (vs: seq<real>)
    ensures |vs| == |xs|
    ensures forall k :: 0 <= k < |xs| ==> vs[k] == xs[k].On(t)
  {
    seq(|xs|, k requires 0 <= k < |xs| => xs[k].On(t))
  }

  /** The snapshot is a sliding window: after any run of writes each trace
      holds the newest `WaveformMaxQty` values of the old window followed by
      the written points. */
  lemma {:induction false} WriteAllSlides(w: Snapshot, xs: seq<Point>, t: Trace)
    requires w.Valid()
    ensures WriteAll(w, xs).Window(t) == (w.Window(t) + Values(xs, t))[|xs|..]
    decreases |xs|
  {
    if |xs| > 0 {
      var w1 := Write(w, xs[0]);
      WriteAllSlides(w1, xs[1..], t);
      assert Values(xs, t) == [xs[0].On(t)] + Values(xs[1..], t);
      DropAfterShift(w.Window(t), xs[0].On(t), Values(xs[1..], t));
    }
  }

  lemma DropAfterShift(a: seq<real>, x: real, b: seq<real>)
    requires |a| > 0
    ensures (a[1..] + [x] + b)[|b|..] == (a + ([x] + b))[|b| + 1..]
  {
    assert a[1..] + [x] + b == (a + ([x] + b))[1..];
  }

  /** `get_waveform`: copy `qty` values of one trace, starting at the write
      position (the oldest value) and wrapping, without consuming them. */
  method GetWaveform(w: Snapshot, t: Trace, qty: nat) returns (buffer: seq<real>)
    requires w.Valid()
    ensures |buffer| == qty
    ensures forall k :: 0 <= k < qty ==> buffer[k] == w.Window(t)[k % WaveformMaxQty]
    ensures qty <= WaveformMaxQty ==> buffer == w.Window(t)[..qty]
  {
    buffer := [];
    var k := 0;
    while k < qty
      invariant k <= qty
      invariant |buffer| == k
      invariant forall j :: 0 <= j < k ==> buffer[j] == w.Window(t)[j % WaveformMaxQty]
    {
      var x := w.traces[t][(w.pos + k) % WaveformMaxQty];
      WindowAt(w, t, k);
      buffer := buffer + [x];
      k := k + 1;
    }
  }

  /** Reading `k` places past the write position is reading the window at
      `k % WaveformMaxQty`. */
  lemma WindowAt(w: Snapshot, t: Trace, k: nat)
    requires w.Valid()
    ensures w.traces[t][(w.pos + k) % WaveformMaxQty] == w.Window(t)[k % WaveformMaxQty]
  {
    var q := k / WaveformMaxQty;
    assert k == q * WaveformMaxQty + k % WaveformMaxQty;
    assert (w.pos + k) % WaveformMaxQty == (w.pos + k % WaveformMaxQty) % WaveformMaxQty;
  }
}
